=== FILE: README.md ===
# Dashboard gateway and client, modelled in Dafny

The Dashboard is a personal dashboard with two halves.

- **The Node gateway (`server.js`).** It sits between the browser and three providers: OpenWeather, OpenAI and Pexels. It refuses cross-origin requests from origins not on its allow-list. For weather and air-quality lookups it validates the coordinates and keeps a 600-second cache per resource. It sorts chat messages into image generations or text completions with a regular expression, and it picks a random page of nature photos.
- **The browser script (`script.js`).** It renders those answers into cards, falling back to "N/A" for missing values. It classifies an air-quality index into a named band, refuses to send a blank chat message, and types a chat reply into the page paragraph by paragraph.

The model makes each gateway handler a pure function. A handler takes:
- the cache state;
- the request;
- a clock reading;
- the outcome each upstream call would have.

It returns:
- the response as a status and a JSON body;
- the new cache state;
- the list of upstream calls it issued.

So "no network call" reads `calls == []`. The client's pure pieces are functions over typed records, and the typing animation is a loop.

Modules, one per file:
- **`Maybe`**: an option type.
- **`JsString`**: JavaScript string behaviour the code relies on. It covers:
  - the `\b` word boundary over `[A-Za-z0-9_]`;
  - ASCII case-insensitive comparison;
  - `.` not matching line terminators;
  - `trim` over ECMAScript white space and line terminators;
  - `split`/`join` on one character;
  - integer-to-decimal conversion.
- **`Json`**: JSON values and JavaScript truthiness.
- **`TtlCache`**: a NodeCache-like store with TTL 600 and lazy purge on `get`.
- **`CacheKeys`**: `weather_<lat>_<lon>` and `aqi_<lat>_<lon>`.
- **`OriginPolicy`**: the CORS origin callback.
- **`ChatIntent`**: the image-intent regular expression. It appears twice: once as a declarative match specification, and once as a scanner proved equal to it. It also holds the verb stripper, proved equal to a declarative "keep every character not inside a whole-word verb" definition.
- **`Gateway`**: the four handlers and the router.
- **`GatewayProperties`**: multi-request properties of the pipeline.
- **`AqiStatus`**: `getAQIStatus`.
- **`DashboardUi`**: the cards, the chat guard, paragraphs and typing.
- **`EndToEnd`**: how the client guard relates to the server's validation.

Two behaviours of the code are easy to misread, and the model states them as they are.
- Cache keys are raw concatenations of the query strings with `_` (server.js:69,91). So `("1_2","3")` and `("1","2_3")` share a key (`CacheKeys.UnderscoreCollision`). Keys are injective whenever `lat` contains no `_` (`CacheKeys.KeyInjectiveForPlainLatitudes`); an underscore in the latitude is what lets two requests share a key.
- Origin matching is exact string comparison against four literals (server.js:16-31). There is no prefix or pattern matching (`OriginPolicy.NoPrefixMatching`).

## Model

| member | source | states |
|---|---|---|
| TtlCache.Get | server.js:70 | a lookup hits iff an entry exists and has not expired, returning the stored value and leaving the store alone; a miss removes the key and no other key changes |
| TtlCache.Set | server.js:12-13 | after a store at time `now`, lookups in `[now, now+600]` return the value and later lookups miss; other keys answer as before |
| TtlCache.PurgeInvisible | server.js:70 | the expired-entry removal done by a lookup changes no later lookup when the clock does not run backwards |
| TtlCache.SetReplaces | server.js:78 | a second store under the same key wins: at most one entry per key |
| CacheKeys.Key | server.js:69 | a key is the resource's prefix, then the latitude, one `_`, then the longitude, each found unchanged at its position |
| CacheKeys.KeysOfResourcesDiffer | server.js:69 | a weather key and an air-quality key are never equal, for any coordinates |
| CacheKeys.KeyInjectiveForPlainLatitudes | server.js:69 | when neither latitude contains `_`, two keys are equal iff resource, latitude and longitude all are; the longitude may contain anything |
| CacheKeys.UnderscoreCollision | server.js:69 | `("1_2","3")` and `("1","2_3")` share the key `weather_1_2_3`, and likewise `aqi_1_2_3` for the key built at line 91 |
| CacheKeys.TextualCoordinates | server.js:69 | coordinates are text: `"10"` and `"10.0"` give different keys |
| OriginPolicy.Includes | server.js:25 | `Array.prototype.includes`: true iff some element equals the string exactly |
| OriginPolicy.Allows | server.js:16-31 | an origin is accepted iff it is absent, empty, or exactly one of the four listed origins |
| OriginPolicy.NoPrefixMatching | server.js:16-31 | a listed origin with anything appended is refused, so there is no prefix or pattern matching |
| OriginPolicy.RefusedExamples | server.js:24-30 | a foreign origin, an upper-case scheme and a subdomain are refused; no origin, the empty origin and the deployed origin are accepted |
| ChatIntent.PatternsAreLetterWords | server.js:114 | every verb and noun of the pattern consists of ASCII letters only |
| ChatIntent.NounAhead | server.js:114 | the scanner finds a noun ending at a word boundary between two positions on one line iff the declarative match condition holds there |
| ChatIntent.MatchesFrom | server.js:114 | scanning from a position finds a match iff some verb at a boundary at or after it starts a full match |
| ChatIntent.ImageRequest | server.js:114 | the regular expression test succeeds iff a verb at a word boundary is followed, on one line, by at least one character and then a noun ending at a word boundary, all case-insensitive |
| ChatIntent.RemoveIsKept | server.js:118 | the global replace of whole-word verbs yields exactly the characters not covered by any whole-word verb occurrence, in order |
| ChatIntent.ImagePrompt | server.js:118 | the image prompt is the trimmed text of every character that lies outside every whole-word verb occurrence, in order |
| ChatIntent.StripChangesIffVerb | server.js:118 | the replace changes the message iff it contains a whole-word verb |
| ChatIntent.SunsetIsImageRequest | server.js:114 | "generate an image of a sunset" is an image request |
| ChatIntent.SunsetPrompt | server.js:118 | its prompt is "an image of a sunset" |
| ChatIntent.ShowMeImagesIsText | server.js:114 | "show me images" is not an image request, because "image" is not followed by a word boundary |
| ChatIntent.CapitalQuestionIsText | server.js:114 | "what is the capital of France" is not an image request |
| ChatIntent.ShowcaseKept | server.js:118 | "showcase" is not stripped, since "show" inside it is not a whole word |
| Gateway.CachedFetch | server.js:65-106 | missing or empty coordinates give 400 with no cache access and no call; a live, truthy entry is served with 200 and no call; otherwise exactly one upstream call, whose data is stored for the full TTL and returned with 200, and whose failure gives 500 "Failed to fetch <weather/air quality> data: …" with the cache answering as before; other keys are untouched |
| Gateway.Chat | server.js:109-141 | a missing or empty message gives 400 and no call; a missing key gives 500 and no call; the image branch is taken iff the intent holds, calling image generation with the stripped prompt and replying "Here is your image:" with the URL; otherwise one completion call with the message and its reply; every failure after a call is a 500 whose message is "Failed to fetch response from OpenAI API: " followed by the error the failed outcome raises, for the image provider or the completion provider as the intent chose |
| Gateway.RandomPage | server.js:147 | the page drawn from a random number in [0,1) is between 1 and 50 |
| Gateway.EveryPageReachable | server.js:147 | every page from 1 to 50 is drawn by some random number |
| Gateway.PhotoSearchHandler | server.js:144-161 | a missing key gives 500 "Failed to fetch image from Pexels: Pexels API key is missing" with no call; otherwise one search of the drawn page; 200 with the first photo's original URL iff the list is non-empty, 404 "No images found." iff it is empty or absent, and on a failed search 500 "Failed to fetch image from Pexels: " followed by the raised error |
| Gateway.FailureMessage | server.js:76 | a thrown error keeps its message; an HTTP failure (here and at lines 98, 124, 133 and 150) reads exactly "<api> Error: ", the decimal status, " - ", then the response text, with nothing else in between |
| Gateway.WithStore | server.js:12-13 | replacing one resource's store leaves the other store unchanged |
| Gateway.Handle | server.js:23-31 | a request is blocked iff its origin is refused |
| GatewayProperties.RepeatWithinTtl | server.js:70-79 | two identical requests within 600 s, the first answering 200 with a truthy document, make at most one upstream call between them; when the first called upstream, the second repeats its answer with no call and no cache change |
| GatewayProperties.ExpiredEntryIsRefetched | server.js:12-13 | once 600 s have passed, the same request calls upstream again |
| GatewayProperties.FalsyDocumentIsRefetched | server.js:71 | a stored document that JavaScript finds falsy is never served from the cache |
| GatewayProperties.ValidationPrecedesNetwork | server.js:67 | invalid coordinates give the 400 body with both stores unchanged and no call |
| GatewayProperties.StoresStaySeparate | server.js:89-93 | a request never changes the store of the other resource |
| GatewayProperties.OtherStoreIsIrrelevant | server.js:91-93 | a coordinate request's answer depends only on its own resource's store |
| GatewayProperties.CoordinateResponses | server.js:65-106 | a coordinate request answers 200, 400 or 500, and every 500 starts with "Failed to fetch " |
| GatewayProperties.ChatCallsOneProvider | server.js:114-135 | an accepted non-empty chat message calls exactly one provider, the image one iff the intent holds, and leaves the caches alone |
| GatewayProperties.SunsetIsRoutedToImages | server.js:117-122 | the sunset request triggers one image generation with prompt "an image of a sunset" |
| GatewayProperties.QuestionsAreRoutedToText | server.js:127-131 | a plain question and "show me images" go to the completion provider unchanged |
| GatewayProperties.OriginEnforcement | server.js:25-29 | a foreign origin is blocked for every request, and a request without an origin is served |
| AqiStatus.GetAqiStatus | script.js:265-272 | the classifier is total and always returns one of the six labels |
| AqiStatus.StatusIsBandLabel | script.js:265-272 | the label is the one at the index counting the thresholds 50, 100, 150, 200, 300 that the value exceeds |
| AqiStatus.ExceededMonotone | script.js:265-272 | a larger value exceeds at least as many thresholds |
| AqiStatus.StatusMonotone | script.js:265-272 | a ≤ b implies the severity rank of a's label is at most b's |
| AqiStatus.Bands | script.js:266-271 | each label is returned exactly on its band: ≤50, 51-100, 101-150, 151-200, 201-300, above 300 |
| AqiStatus.ProviderScaleIsAlwaysGood | script.js:266 | every value of the provider's 1-5 index is labelled "Good" |
| JsString.Trim | script.js:308 | trimming gives the empty string iff the input is all white space; the result is a contiguous piece of the input with only white space before and after it, and no white space at either of its own ends |
| JsString.IsBoundary | server.js:114 | `\b` holds at the start or end of a text iff the adjacent character is a word character, and between two characters iff exactly one of them is a word character |
| Json.Truthy | server.js:71 | a parsed value is falsy iff it is `null`, `false`, `0` or the empty string |
| Json.TruthyOptions | server.js:67 | an optional query value, message or card reading is truthy iff it is present and JavaScript finds the value itself truthy; the gateway's checks and the cards' fallbacks all use this one test |
| JsString.Split | script.js:345 | split yields at least one piece, none containing the separator, and joining them gives back the input |
| JsString.SplitOfJoin | script.js:345 | splitting separator-free pieces joined by the separator gives the pieces back |
| JsString.IntToString | script.js:156-161 | the decimal text of an integer is a `-` iff it is negative, then digits whose value is its magnitude, with no leading zero unless the text is "0" |
| JsString.NatToString | script.js:159 | the decimal text of a number is non-empty digits whose value is the number, starting with `0` only when it is exactly "0" |
| DashboardUi.TextOr | script.js:155-157 | a string field falls back like JavaScript's "or": the value when present and non-empty, otherwise the fallback |
| DashboardUi.NumberOrNotAvailable | script.js:156-161 | a field shows "N/A" iff it is absent or 0; otherwise its decimal text with the unit |
| DashboardUi.UpdateWeather | script.js:139-161 | no data or no `main` block gives the error view "Unable to fetch weather data"; otherwise each numeric field reads "N/A" iff it is absent or 0 and otherwise its decimal text with its unit (°C, %, m/s), and the city name and description are shown as given when non-empty, falling back to "Unknown City" and "N/A" |
| DashboardUi.UpdateAirQuality | script.js:240-263 | no data, no list or an empty list gives the error view "Unable to fetch air quality data"; otherwise the city is the fixed "Ho Chi Minh City", the status names the first entry's index and label, and each pollutant reads "N/A" iff it is absent or 0 and otherwise its decimal text in µg/m³ |
| DashboardUi.StatusLine | script.js:258 | the status line is exactly "AQI: ", the index's decimal text, " (", the index's band label, then ")", each at its own position |
| DashboardUi.ProviderIndexReadsGood | script.js:255-258 | with the provider's 1-5 index the status line always ends in "(Good)" |
| DashboardUi.OutgoingMessage | script.js:308-309 | nothing is sent iff the input is blank; what is sent is exactly the trimmed input, non-empty and with no white space at either end |
| DashboardUi.KeepNonBlank | script.js:345 | the filter never yields more pieces than it was given |
| DashboardUi.KeepIfNonBlankIsTrimTest | script.js:345 | a piece is kept exactly when `trim` leaves it non-empty |
| DashboardUi.KeepNonBlankFilters | script.js:345 | every kept piece is a non-blank piece of the input, unchanged, and every non-blank piece is kept |
| DashboardUi.KeepNonBlankAppend | script.js:345 | the blank-line filter keeps the order of the pieces |
| DashboardUi.Paragraphs | script.js:345 | the paragraphs are the non-blank lines of the reply split at newlines, in order: every paragraph is one of those lines, newline-free and non-blank, and every non-blank line is among them |
| DashboardUi.ParagraphsOfLines | script.js:345 | splitting newline-free lines joined by newlines and filtering gives exactly the non-blank lines |
| DashboardUi.ParagraphsOfJoin | script.js:345 | non-blank, newline-free paragraphs joined with newlines are recovered exactly |
| DashboardUi.BlankLinesVanish | script.js:345 | a blank line between two paragraphs produces no paragraph of its own |
| DashboardUi.TypeParagraph | script.js:356-366 | typing a paragraph appends its characters one by one in index order and ends with exactly its text |
| DashboardUi.TypeParagraphs | script.js:349-371 | the paragraph chain creates one element per paragraph, in order, and fills each with exactly its paragraph, emitting the reference DOM script |
| DashboardUi.TypeText | script.js:344-372 | typing a reply creates one paragraph element per paragraph, in order, each holding exactly its paragraph, with the DOM effects of the reference script |
| EndToEnd.ClientMessagesAreNeverRejected | script.js:308-320 | any message the chat box sends passes the gateway's "Message is required" check |
| EndToEnd.BlankInputsStayLocal | script.js:309 | a blank but non-empty input is kept back by the client, though the gateway would have accepted it |

## Left out

- index.js: an older client with no logic of its own beyond the provider's 1-5 air-quality scale, which is used only in `AqiStatus.ProviderScaleIsAlwaysGood` and `DashboardUi.ProviderIndexReadsGood`.
- Network access. The OpenWeather, OpenAI and Pexels calls are replaced by outcome parameters: fetched data, an HTTP error status and text, or a thrown message.
- Response shapes. The image and completion outcomes carry the URL and the reply text themselves. A reply without `data.data[0]` or `choices[0].message` throws in the source, and the thrown-message outcome covers that. A reply whose `url` or `content` leaf is missing is not modelled: the source then answers 200 with `imageUrl` or `reply` dropped from the body (server.js:126,135).
- Gateway.PhotoSearchHandler: a photo is its `src.original` text, so a first photo lacking it is not modelled. In the source a photo whose `src` has no `original` gives 200 `{}` (server.js:153). A photo with no `src` at all makes line 153 throw a TypeError, which server.js:157-159 turns into 500 "Failed to fetch image from Pexels: " followed by the TypeError's message.
- Json: numbers are integers. Fractional numbers, `NaN` and JavaScript's number formatting are not modelled, so weather readings, air-quality indices and concentrations are whole numbers. Coordinates are not numbers in the model: they stay the raw query strings.
- The Express, cors and multer wiring. What Express sends when the origin callback errors is not modelled; a refused origin is the `Blocked` outcome. The error handler's own 500 is out too.
- Startup and configuration: `/health`, `/`, `app.listen`, dotenv and `process.exit`. The API keys are parameters, and an empty key models a missing one.
- Gateway.CachedFetch: takes one clock reading per request. The time between lookup and store is not modelled. The clock is in whole seconds rather than milliseconds.
- NodeCache's background expiry sweep and its value cloning. Neither is observable through `get` and `set`.
- Concurrent requests and cache stampedes.
- Gateway.RandomPage: takes a real number in [0,1) in place of `Math.random`. Floating-point rounding is not modelled.
- DashboardUi.UpdateWeather: temperatures and other readings are integers. `Math.round` and non-integer numbers are not modelled. The date line is left out.
- DashboardUi.UpdateAirQuality: the first entry always has a `main.aqi` index and a `components` block, and concentrations, which the provider reports as fractions, are whole numbers here. In the source a missing `main` throws a TypeError at script.js:255. A missing `components` is only read as `undefined` at script.js:254; the TypeError comes at script.js:259, when `pm2_5` is read, after lines 257-258 have set the city and status line. Either way, the catch at script.js:233-235 replaces the card with the error view showing the TypeError's message. None of this is modelled.
- AqiStatus.GetAqiStatus: takes an integer. A `main` block without `aqi` makes the source call `getAQIStatus(undefined)`, every comparison fails, and the card reads "AQI: undefined (Hazardous)" (script.js:255,258,266-271); that case is not modelled.
- DOM element lookups in the client. Every element is assumed present.
- Timers, geolocation, the theme toggle, date formatting, image display and the clock widget.
- DashboardUi.TypeText: runs the `setTimeout` chain to completion as a loop. Interleaving with other events is not modelled.
- Non-string chat messages and repeated query parameters (arrays). Messages and coordinates are strings, and an absent one is `None`.
- Characters are Unicode scalar values, not UTF-16 code units. For text outside the Basic Multilingual Plane this changes lengths. It also changes the typing trace: script.js:357-358 reads `.length` and indexes the paragraph by code unit. So the source types such a character (an emoji in a reply) in two ticks, and after the first the paragraph holds a lone high surrogate. `DashboardUi.TypeParagraph`, `TypeParagraphs` and `TypeText` append it in one step. The final text is the same either way.

=== FILE: aqi_status.dfy ===
/**
 * The dashboard's air-quality label: six bands of the 0-500 US AQI scale,
 * chosen by a chain of `<=` comparisons.
 */
module AqiStatus {

  /** The labels from least to most severe. */
  const Labels: seq<string> := [
    "Good", "Moderate", "Unhealthy for Sensitive Groups", "Unhealthy", "Very Unhealthy", "Hazardous"
  ]

  /** Upper bound of every band but the last, in increasing order. */
  const Thresholds: seq<int> := [50, 100, 150, 200, 300]

  /** `getAQIStatus(aqi)` as the if-chain writes it. */
  function GetAqiStatus(aqi: int): (status: string)
    ensures status in Labels
  {
    if aqi <= 50 then "Good"
    else if aqi <= 100 then "Moderate"
    else if aqi <= 150 then "Unhealthy for Sensitive Groups"
    else if aqi <= 200 then "Unhealthy"
    else if aqi <= 300 then "Very Unhealthy"
    else "Hazardous"
  }

  /** Number of thresholds among the first `n` that `aqi` exceeds. */
  function Exceeded(aqi: int, n: nat): (k: nat)
    requires n <= |Thresholds|
    ensures k <= n
  {
    if n == 0 then 0 else Exceeded(aqi, n - 1) + (if aqi > Thresholds[n - 1] then 1 else 0)
  }

  /** Reference definition: the severity index is the count of thresholds exceeded. */
  function Severity(aqi: int): (k: nat)
    ensures k < |Labels|
  {
    Exceeded(aqi, |Thresholds|)
  }

  /** Exceeding is monotone in the value. */
  lemma {:induction false} ExceededMonotone(a: int, b: int, n: nat)
    requires a <= b && n <= |Thresholds|
    ensures Exceeded(a, n) <= Exceeded(b, n)
  {
    if n > 0 {
      ExceededMonotone(a, b, n - 1);
    }
  }

  /** The if-chain picks exactly the label of the reference severity. */
  lemma StatusIsBandLabel(aqi: int)
    ensures GetAqiStatus(aqi) == Labels[Severity(aqi)]
  {
    assert Exceeded(aqi, 1) == (if aqi > 50 then 1 else 0);
    assert Exceeded(aqi, 2) == Exceeded(aqi, 1) + (if aqi > 100 then 1 else 0);
    assert Exceeded(aqi, 3) == Exceeded(aqi, 2) + (if aqi > 150 then 1 else 0);
    assert Exceeded(aqi, 4) == Exceeded(aqi, 3) + (if aqi > 200 then 1 else 0);
    assert Exceeded(aqi, 5) == Exceeded(aqi, 4) + (if aqi > 300 then 1 else 0);
  }

  /** The label's position in `Labels`, read back from the string. */
  function Rank(s: string): (k: nat)
    requires s in Labels
    ensures k < |Labels| && Labels[k] == s
  {
    if s == Labels[0] then 0
    else if s == Labels[1] then 1
    else if s == Labels[2] then 2
    else if s == Labels[3] then 3
    else if s == Labels[4] then 4
    else 5
  }

  /** A higher value never gets a less severe label. */
  lemma StatusMonotone(a: int, b: int)
    requires a <= b
    ensures Rank(GetAqiStatus(a)) <= Rank(GetAqiStatus(b))
  {
    StatusIsBandLabel(a);
    StatusIsBandLabel(b);
    ExceededMonotone(a, b, |Thresholds|);
    assert Rank(GetAqiStatus(a)) == Severity(a);
    assert Rank(GetAqiStatus(b)) == Severity(b);
  }

  /** The bands, written out: the label changes exactly at 51, 101, 151, 201 and 301. */
  lemma Bands(aqi: int)
    ensures GetAqiStatus(aqi) == "Good" <==> aqi <= 50
    ensures GetAqiStatus(aqi) == "Moderate" <==> 50 < aqi <= 100
    ensures GetAqiStatus(aqi) == "Unhealthy for Sensitive Groups" <==> 100 < aqi <= 150
    ensures GetAqiStatus(aqi) == "Unhealthy" <==> 150 < aqi <= 200
    ensures GetAqiStatus(aqi) == "Very Unhealthy" <==> 200 < aqi <= 300
    ensures GetAqiStatus(aqi) == "Hazardous" <==> 300 < aqi
  {
  }

  /** On the provider's 1-5 index scale only the first band is reachable. */
  lemma ProviderScaleIsAlwaysGood(aqi: int)
    requires 1 <= aqi <= 5
    ensures GetAqiStatus(aqi) == "Good"
  {
  }
}

=== FILE: cache_keys.dfy ===
/**
 * Cache keys of the weather and air-quality endpoints: the resource prefix,
 * the raw `lat` query string, `_`, the raw `lon` query string. Nothing is
 * parsed or normalised.
 */
module CacheKeys {

  /** The two cached resources, each with its own store. */
  datatype Resource = Weather | AirQuality

  function Prefix(res: Resource): string {
    match res
    case Weather => "weather_"
    case AirQuality => "aqi_"
  }

  /** `weather_${lat}_${lon}` or `aqi_${lat}_${lon}`. */
  function Key(res: Resource, lat: string, lon: string): (k: string)
    ensures |k| == |Prefix(res)| + |lat| + 1 + |lon|
    ensures k[..|Prefix(res)|] == Prefix(res)
    ensures k[|Prefix(res)|..|Prefix(res)| + |lat|] == lat
    ensures k[|Prefix(res)| + |lat|] == '_'
    ensures k[|k| - |lon|..] == lon
  {
    var k := Prefix(res) + lat + "_" + lon;
    assert k == Prefix(res) + (lat + ("_" + lon));
    k
  }

  /** A weather key is never an air-quality key, whatever the coordinates. */
  lemma KeysOfResourcesDiffer(lat: string, lon: string, lat': string, lon': string)
    ensures Key(Resource.Weather, lat, lon) != Key(Resource.AirQuality, lat', lon')
  {
    assert Key(Resource.Weather, lat, lon)[0] == 'w';
    assert Key(Resource.AirQuality, lat', lon')[0] == 'a';
  }

  predicate NoUnderscore(s: string) {
    '_' !in s
  }

  /** An underscore-free field that `k` holds at `p`, followed by `_`, is determined by `k` and `p`. */
  lemma FieldBeforeUnderscore(k: string, p: nat, a: string, b: string)
    requires p + |a| < |k| && p + |b| < |k|
    requires k[p..p + |a|] == a && k[p..p + |b|] == b
    requires k[p + |a|] == '_' && k[p + |b|] == '_'
    requires NoUnderscore(a) && NoUnderscore(b)
    ensures a == b
  {
    assert forall i :: 0 <= i < |a| ==> k[p + i] == k[p..p + |a|][i] == a[i];
    assert forall i :: 0 <= i < |b| ==> k[p + i] == k[p..p + |b|][i] == b[i];
    assert |a| == |b|;
  }

  /**
   * For latitudes without `_` (every numeric query string) two keys agree
   * exactly when resource, `lat` and `lon` all agree: the first `_` after
   * the prefix ends the latitude, so the longitude may hold anything.
   */
  lemma {:induction false} KeyInjectiveForPlainLatitudes(res: Resource, lat: string, lon: string,
                                                         res': Resource, lat': string, lon': string)
    requires NoUnderscore(lat) && NoUnderscore(lat')
    ensures Key(res, lat, lon) == Key(res', lat', lon') <==> res == res' && lat == lat' && lon == lon'
  {
    if Key(res, lat, lon) == Key(res', lat', lon') {
      var k := Key(res, lat, lon);
      if res != res' {
        if res == Resource.Weather { KeysOfResourcesDiffer(lat, lon, lat', lon'); }
        else { KeysOfResourcesDiffer(lat', lon', lat, lon); }
      }
      // both latitudes sit right after the shared prefix, each followed by '_'
      FieldBeforeUnderscore(k, |Prefix(res)|, lat, lat');
      assert lon == k[|k| - |lon|..] == lon';
    }
  }

  /** `_` inside the latitude makes distinct requests share one key. */
  lemma UnderscoreCollision()
    ensures Key(Resource.Weather, "1_2", "3") == Key(Resource.Weather, "1", "2_3")
    ensures Key(Resource.AirQuality, "1_2", "3") == Key(Resource.AirQuality, "1", "2_3")
    ensures "1_2" != "1"
  {
  }

  /** Coordinates are compared as text: "10" and "10.0" are different keys. */
  lemma TextualCoordinates()
    ensures Key(Resource.Weather, "10", "106.7009") != Key(Resource.Weather, "10.0", "106.7009")
  {
    assert Key(Resource.Weather, "10", "106.7009")[10] == '_';
    assert Key(Resource.Weather, "10.0", "106.7009")[10] == '.';
  }
}

=== FILE: chat_intent.dfy ===
/**
 * The chat endpoint's two string functions: the image-intent test
 * `/\b(show|display|see|generate|create).+(image|picture|photo|drawing|illustration)\b/i`
 * and the prompt stripper
 * `message.replace(/\b(show|display|see|generate|create)\b/gi, "").trim()`.
 *
 * Each is given twice: as a declarative statement of when the regular
 * expression matches (`ImageIntent`, `KeptFrom`), and as a left-to-right
 * scan (`ImageRequest`, `RemoveVerbsFrom`) proved equal to it.
 */
module ChatIntent {
  import opened JsString

  /** The action-verb alternatives, in pattern order. */
  const Verbs: seq<string> := ["show", "display", "see", "generate", "create"]

  /** The visual-noun alternatives, in pattern order. */
  const Nouns: seq<string> := ["image", "picture", "photo", "drawing", "illustration"]

  lemma PatternsAreLetterWords()
    ensures forall k :: 0 <= k < |Verbs| ==> LetterWord(Verbs[k]) && |Verbs[k]| > 0
    ensures forall k :: 0 <= k < |Nouns| ==> LetterWord(Nouns[k]) && |Nouns[k]| > 0
  {
  }

  // ---------------------------------------------------------------- intent test

  /** Verb alternative `k` matches at `i`, and `\b` holds before it. */
  predicate VerbAt(m: string, i: int, k: int) {
    0 <= k < |Verbs| && 0 <= i <= |m| && IsBoundary(m, i) && WordAt(m, i, Verbs[k])
  }

  /** Some noun alternative matches at `j` and `\b` holds after it. */
  predicate NounEndsAt(m: string, j: int) {
    exists k :: 0 <= k < |Nouns| && WordAt(m, j, Nouns[k]) && IsBoundary(m, j + |Nouns[k]|)
  }

  /** `m[lo..hi]` holds no line terminator, so `.` can consume all of it. */
  predicate OnOneLine(m: string, lo: int, hi: int) {
    0 <= lo <= hi <= |m| && forall t :: lo <= t < hi ==> !IsLineTerminator(m[t])
  }

  /** The intent pattern matches with verb `k` at `i`, `.+` over `m[i+|verb|..j]`, and a noun at `j`. */
  predicate MatchAt(m: string, i: int, k: int, j: int) {
    && VerbAt(m, i, k)
    && i + |Verbs[k]| < j
    && OnOneLine(m, i + |Verbs[k]|, j)
    && NounEndsAt(m, j)
  }

  /** `regex.test(m)`: some way of matching the intent pattern exists. */
  ghost predicate ImageIntent(m: string) {
    exists i, k, j :: MatchAt(m, i, k, j)
  }

  /** A noun ends at a `\b` at some `j' >= j`, with `m[lo..j']` on one line. */
  function NounAhead(m: string, lo: int, j: int): (b: bool)
    requires 0 <= lo < j && OnOneLine(m, lo, j - 1)
    decreases |m| + 1 - j
    ensures b <==> exists j' :: j <= j' && OnOneLine(m, lo, j') && NounEndsAt(m, j')
  {
    if j > |m| then false
    else if IsLineTerminator(m[j - 1]) then false
    else NounEndsAt(m, j) || NounAhead(m, lo, j + 1)
  }

  /** Verb `k` at `i` starts a match exactly when a noun follows on the same line. */
  lemma VerbStartsMatch(m: string, i: int, k: int)
    requires VerbAt(m, i, k)
    ensures NounAhead(m, i + |Verbs[k]|, i + |Verbs[k]| + 1) <==> exists j :: MatchAt(m, i, k, j)
  {
    var e := i + |Verbs[k]|;
    if NounAhead(m, e, e + 1) {
      var j :| e + 1 <= j && OnOneLine(m, e, j) && NounEndsAt(m, j);
      assert MatchAt(m, i, k, j);
    }
  }

  /** The pattern matches with its verb at some position `>= i`. */
  function MatchesFrom(m: string, i: nat): (b: bool)
    requires i <= |m|
    decreases |m| - i
    ensures b <==> exists i', k, j :: i <= i' && MatchAt(m, i', k, j)
  {
    PatternsAreLetterWords();
    if i == |m| then false
    else
      var here := exists k | 0 <= k < |Verbs| ::
        VerbAt(m, i, k) && NounAhead(m, i + |Verbs[k]|, i + |Verbs[k]| + 1);
      assert here <==> exists k, j :: MatchAt(m, i, k, j) by {
        forall k | VerbAt(m, i, k) {
          VerbStartsMatch(m, i, k);
        }
      }
      here || MatchesFrom(m, i + 1)
  }

  /** The server's `isImageRequest`. */
  function ImageRequest(m: string): (b: bool)
    ensures b <==> ImageIntent(m)
  {
    MatchesFrom(m, 0)
  }

  // ---------------------------------------------------------------- prompt stripper

  /** The global pattern `\b(verb)\b` matches alternative `k` at `p`. */
  predicate WholeVerbAt(s: string, p: int, k: int) {
    && 0 <= k < |Verbs|
    && 0 <= p <= |s|
    && IsBoundary(s, p)
    && WordAt(s, p, Verbs[k])
    && IsBoundary(s, p + |Verbs[k]|)
  }

  /** The first alternative from `k` on, in pattern order, matching whole at `p` (`|Verbs|` if none). */
  function FirstWholeVerb(s: string, p: int, k: nat): (r: nat)
    requires k <= |Verbs|
    decreases |Verbs| - k
    ensures k <= r <= |Verbs|
    ensures r < |Verbs| ==> WholeVerbAt(s, p, r)
    ensures forall k' :: k <= k' < r ==> !WholeVerbAt(s, p, k')
  {
    if k == |Verbs| || WholeVerbAt(s, p, k) then k else FirstWholeVerb(s, p, k + 1)
  }

  /** The global replace, resumed at `p`: each whole-word verb is dropped, every other character copied. */
  function RemoveVerbsFrom(s: string, p: nat): (r: string)
    requires p <= |s|
    decreases |s| - p
  {
    PatternsAreLetterWords();
    if p == |s| then []
    else
      var r := FirstWholeVerb(s, p, 0);
      if r < |Verbs| then RemoveVerbsFrom(s, p + |Verbs[r]|)
      else [s[p]] + RemoveVerbsFrom(s, p + 1)
  }

  /**
   * The image-generation prompt built from a chat message: the trimmed text
   * of every character outside a whole-word verb (the reference `KeptFrom`
   * below).
   */
  function ImagePrompt(m: string): (prompt: string)
    ensures prompt == Trim(KeptFrom(m, 0))
  {
    RemoveIsKept(m, 0);
    Trim(RemoveVerbsFrom(m, 0))
  }

  /** Position `t` lies in some whole-word verb occurrence. */
  ghost predicate Covered(s: string, t: int) {
    exists p, k :: WholeVerbAt(s, p, k) && p <= t < p + |Verbs[k]|
  }

  /** Position `t` lies strictly after the first character of some whole-word verb occurrence. */
  ghost predicate InsideVerb(s: string, t: int) {
    exists p, k :: WholeVerbAt(s, p, k) && p < t < p + |Verbs[k]|
  }

  /** Reference definition: the characters of `s[t..]` no whole-word verb covers, in order. */
  ghost function KeptFrom(s: string, t: nat): string
    requires t <= |s|
    decreases |s| - t
  {
    if t == |s| then [] else (if Covered(s, t) then [] else [s[t]]) + KeptFrom(s, t + 1)
  }

  /** Whole-word verb occurrences never overlap. */
  lemma NoOverlap(s: string, p: int, k: int, q: int, k': int)
    requires WholeVerbAt(s, p, k) && WholeVerbAt(s, q, k')
    requires p <= q < p + |Verbs[k]|
    ensures p == q && |Verbs[k]| == |Verbs[k']|
  {
    PatternsAreLetterWords();
    if p < q {
      WordAtIsWordChars(s, p, Verbs[k], q - 1);
      WordAtIsWordChars(s, q, Verbs[k'], q);
    } else if |Verbs[k]| < |Verbs[k']| {
      WordAtIsWordChars(s, p, Verbs[k], p + |Verbs[k]| - 1);
      WordAtIsWordChars(s, q, Verbs[k'], p + |Verbs[k]|);
    } else if |Verbs[k']| < |Verbs[k]| {
      WordAtIsWordChars(s, q, Verbs[k'], q + |Verbs[k']| - 1);
      WordAtIsWordChars(s, p, Verbs[k], q + |Verbs[k']|);
    }
  }

  /** Right after a removed verb the scan is not inside another occurrence. */
  lemma NotInsideAfter(s: string, p: int, r: int)
    requires WholeVerbAt(s, p, r) && !InsideVerb(s, p)
    ensures !InsideVerb(s, p + |Verbs[r]|)
  {
    var e := p + |Verbs[r]|;
    forall q, k | WholeVerbAt(s, q, k) && q < e < q + |Verbs[k]|
      ensures q >= p
    {
      if q >= p {
        NoOverlap(s, p, r, q, k);
      }
    }
    forall q, k | WholeVerbAt(s, q, k) && p <= q < e < q + |Verbs[k]|
      ensures false
    {
      NoOverlap(s, p, r, q, k);
    }
  }

  /** Covered characters contribute nothing to the kept text. */
  lemma {:induction false} KeptSkipsCovered(s: string, p: nat, n: nat)
    requires p + n <= |s|
    requires forall t :: p <= t < p + n ==> Covered(s, t)
    decreases n
    ensures KeptFrom(s, p) == KeptFrom(s, p + n)
  {
    if n > 0 {
      assert Covered(s, p);
      assert KeptFrom(s, p) == [] + KeptFrom(s, p + 1);
      KeptSkipsCovered(s, p + 1, n - 1);
    }
  }

  /** Every character of a whole-word verb occurrence is covered. */
  lemma VerbCovers(s: string, p: int, r: int)
    requires WholeVerbAt(s, p, r)
    ensures forall t :: p <= t < p + |Verbs[r]| ==> Covered(s, t)
  {
  }

  /** Where no verb starts and none is under way, the character is kept and the next one is free. */
  lemma NoVerbHere(s: string, p: int)
    requires 0 <= p < |s| && !InsideVerb(s, p)
    requires forall k :: 0 <= k < |Verbs| ==> !WholeVerbAt(s, p, k)
    ensures !Covered(s, p) && !InsideVerb(s, p + 1)
  {
    forall q, k | WholeVerbAt(s, q, k) && q <= p < q + |Verbs[k]|
      ensures q < p
    {
    }
  }

  /** The scan jumps over the first whole-word verb it finds. */
  lemma ScanSkipsVerb(s: string, p: nat, r: nat)
    requires p < |s| && r == FirstWholeVerb(s, p, 0) && r < |Verbs|
    ensures p + |Verbs[r]| <= |s|
    ensures RemoveVerbsFrom(s, p) == RemoveVerbsFrom(s, p + |Verbs[r]|)
  {
    assert WordAt(s, p, Verbs[r]);
  }

  /** A verb found at `p` is skipped by the scan and contributes nothing to the kept text. */
  lemma VerbStep(s: string, p: nat, r: nat)
    requires p < |s| && !InsideVerb(s, p)
    requires r == FirstWholeVerb(s, p, 0) && r < |Verbs|
    ensures p + |Verbs[r]| <= |s| && !InsideVerb(s, p + |Verbs[r]|)
    ensures RemoveVerbsFrom(s, p) == RemoveVerbsFrom(s, p + |Verbs[r]|)
    ensures KeptFrom(s, p) == KeptFrom(s, p + |Verbs[r]|)
  {
    PatternsAreLetterWords();
    ScanSkipsVerb(s, p, r);
    NotInsideAfter(s, p, r);
    VerbCovers(s, p, r);
    KeptSkipsCovered(s, p, |Verbs[r]|);
  }

  /** Where no verb is found at `p` the scan copies the character, as the kept text does. */
  lemma CharStep(s: string, p: nat)
    requires p < |s| && !InsideVerb(s, p)
    requires FirstWholeVerb(s, p, 0) == |Verbs|
    ensures !InsideVerb(s, p + 1)
    ensures RemoveVerbsFrom(s, p) == [s[p]] + RemoveVerbsFrom(s, p + 1)
    ensures KeptFrom(s, p) == [s[p]] + KeptFrom(s, p + 1)
  {
    NoVerbHere(s, p);
  }

  /** The scan computes the reference definition from any position not inside a verb. */
  lemma {:induction false} RemoveIsKept(s: string, p: nat)
    requires p <= |s| && !InsideVerb(s, p)
    decreases |s| - p
    ensures RemoveVerbsFrom(s, p) == KeptFrom(s, p)
  {
    if p < |s| {
      var r := FirstWholeVerb(s, p, 0);
      if r < |Verbs| {
        VerbStep(s, p, r);
        PatternsAreLetterWords();
        RemoveIsKept(s, p + |Verbs[r]|);
      } else {
        CharStep(s, p);
        RemoveIsKept(s, p + 1);
      }
    }
  }

  /** Some whole-word verb occurs in `s`. */
  ghost predicate HasWholeVerb(s: string) {
    exists p, k :: WholeVerbAt(s, p, k)
  }

  lemma {:induction false} KeptAtMost(s: string, t: nat)
    requires t <= |s|
    decreases |s| - t
    ensures |KeptFrom(s, t)| <= |s| - t
  {
    if t < |s| {
      KeptAtMost(s, t + 1);
    }
  }

  lemma {:induction false} KeptShorter(s: string, t: nat, u: nat)
    requires t <= u < |s| && Covered(s, u)
    decreases u - t
    ensures |KeptFrom(s, t)| < |s| - t
  {
    if t < u {
      KeptShorter(s, t + 1, u);
    } else {
      KeptAtMost(s, t + 1);
    }
  }

  lemma {:induction false} KeptAll(s: string, t: nat)
    requires t <= |s|
    requires forall u :: t <= u < |s| ==> !Covered(s, u)
    decreases |s| - t
    ensures KeptFrom(s, t) == s[t..]
  {
    if t < |s| {
      KeptAll(s, t + 1);
      assert s[t..] == [s[t]] + s[t + 1..];
    }
  }

  /** The stripper changes a message exactly when it holds a whole-word verb. */
  lemma StripChangesIffVerb(s: string)
    ensures RemoveVerbsFrom(s, 0) == s <==> !HasWholeVerb(s)
  {
    RemoveIsKept(s, 0);
    if HasWholeVerb(s) {
      PatternsAreLetterWords();
      var p, k :| WholeVerbAt(s, p, k);
      assert Covered(s, p);
      KeptShorter(s, 0, p);
    } else {
      KeptAll(s, 0);
    }
  }

  /** With no whole-word verb from `p` on, the rest of the text is copied unchanged. */
  lemma {:induction false} RemoveNothingFrom(s: string, p: nat)
    requires p <= |s|
    requires forall q, k :: p <= q < |s| ==> !WholeVerbAt(s, q, k)
    decreases |s| - p
    ensures RemoveVerbsFrom(s, p) == s[p..]
  {
    if p < |s| {
      RemoveNothingFrom(s, p + 1);
      assert s[p..] == [s[p]] + s[p + 1..];
    }
  }

  /** The worked example is an image request. */
  lemma SunsetIsImageRequest()
    ensures ImageRequest("generate an image of a sunset")
  {
    var m := "generate an image of a sunset";
    assert WordAt(m, 12, Nouns[0]);
    assert MatchAt(m, 0, 3, 12);
  }

  /** A whole-word verb starts with its first letter, in either case. */
  lemma VerbStart(s: string, q: int, k: int)
    requires WholeVerbAt(s, q, k)
    ensures q < |s| && LowerAscii(s[q]) == Verbs[k][0] && IsBoundary(s, q)
  {
    PatternsAreLetterWords();
  }

  /** A pattern matching at `p` has its `j`-th letter at `p + j`, folded. */
  lemma WordAtLetter(s: string, p: int, w: string, j: int)
    requires 0 <= j < |w|
    ensures WordAt(s, p, w) ==> p + j < |s| && LowerAscii(s[p + j]) == w[j]
  {
  }

  lemma SunsetFirstVerb()
    ensures FirstWholeVerb("generate an image of a sunset", 0, 0) == 3
  {
    var m := "generate an image of a sunset";
    assert WholeVerbAt(m, 0, 3);
    WordAtLetter(m, 0, Verbs[0], 0);
    WordAtLetter(m, 0, Verbs[1], 0);
    WordAtLetter(m, 0, Verbs[2], 0);
    assert FirstWholeVerb(m, 0, 3) == 3;
    assert FirstWholeVerb(m, 0, 2) == 3;
    assert FirstWholeVerb(m, 0, 1) == 3;
  }

  /** Between the verb and "sunset" no word starts with a verb's first letter. */
  lemma SunsetNoVerbsBeforeLastWord(q: int, k: int)
    requires 8 <= q < 23
    ensures !WholeVerbAt("generate an image of a sunset", q, k)
  {
    var m := "generate an image of a sunset";
    if WholeVerbAt(m, q, k) {
      VerbStart(m, q, k);
    }
  }

  /** "sunset" starts with an `s`, but neither "show" nor "see" continues with `u`. */
  lemma SunsetNoVerbsInLastWord(q: int, k: int)
    requires 23 <= q < 29
    ensures !WholeVerbAt("generate an image of a sunset", q, k)
  {
    var m := "generate an image of a sunset";
    if WholeVerbAt(m, q, k) {
      VerbStart(m, q, k);
      WordAtLetter(m, q, Verbs[k], 1);
    }
  }

  lemma SunsetNoMoreVerbs(q: int, k: int)
    requires 8 <= q < 29
    ensures !WholeVerbAt("generate an image of a sunset", q, k)
  {
    if q < 23 {
      SunsetNoVerbsBeforeLastWord(q, k);
    } else {
      SunsetNoVerbsInLastWord(q, k);
    }
  }

  lemma SunsetVerbRemoved()
    ensures RemoveVerbsFrom("generate an image of a sunset", 0) == "generate an image of a sunset"[8..]
  {
    var m := "generate an image of a sunset";
    SunsetFirstVerb();
    forall q, k | 8 <= q < |m|
      ensures !WholeVerbAt(m, q, k)
    {
      SunsetNoMoreVerbs(q, k);
    }
    RemoveNothingFrom(m, 8);
  }

  /** The example sentence is the verb, a space, and the prompt. */
  lemma SunsetParts()
    ensures "generate an image of a sunset"[8..] == " " + "an image of a sunset"
  {
  }

  /** Trimming what the verb leaves drops only the space it was followed by. */
  lemma SunsetTrim()
    ensures Trim("generate an image of a sunset"[8..]) == "an image of a sunset"
  {
    var p := "an image of a sunset";
    SunsetParts();
    assert p[0] == 'a' && p[|p| - 1] == 't';
    TrimOneLeadingSpace(" " + p);
    assert (" " + p)[1..] == p;
  }

  /** The worked example's prompt: the verb goes, the rest of the sentence stays. */
  lemma SunsetPrompt()
    ensures ImagePrompt("generate an image of a sunset") == "an image of a sunset"
  {
    SunsetVerbRemoved();
    SunsetTrim();
  }


  /** A verb of the intent pattern starts with its first two letters, in either case. */
  lemma VerbAtStart(m: string, i: int, k: int)
    requires VerbAt(m, i, k)
    ensures i + 1 < |m| && LowerAscii(m[i]) == Verbs[k][0] && LowerAscii(m[i + 1]) == Verbs[k][1]
  {
    PatternsAreLetterWords();
  }

  /** The noun alternative that makes `NounEndsAt` hold starts with its first letter. */
  lemma NounStart(m: string, j: int) returns (k: int)
    requires NounEndsAt(m, j)
    ensures 0 <= k < |Nouns| && WordAt(m, j, Nouns[k]) && IsBoundary(m, j + |Nouns[k]|)
    ensures j < |m| && LowerAscii(m[j]) == Nouns[k][0]
  {
    PatternsAreLetterWords();
    k :| 0 <= k < |Nouns| && WordAt(m, j, Nouns[k]) && IsBoundary(m, j + |Nouns[k]|);
  }

  lemma NoNounEndsInShowMeImages(j: int)
    ensures !NounEndsAt("show me images", j)
  {
    var m := "show me images";
    if NounEndsAt(m, j) {
      var k := NounStart(m, j);
    }
  }

  /** A plural noun fails the closing `\b`, so the message goes to the text branch. */
  lemma ShowMeImagesIsText()
    ensures !ImageRequest("show me images")
  {
    var m := "show me images";
    forall i, k, j | MatchAt(m, i, k, j)
      ensures false
    {
      NoNounEndsInShowMeImages(j);
    }
  }

  lemma NoVerbInCapitalQuestion(i: int, k: int)
    ensures !VerbAt("what is the capital of France", i, k)
  {
    var m := "what is the capital of France";
    if VerbAt(m, i, k) {
      VerbAtStart(m, i, k);
    }
  }

  /** A question with none of the verbs goes to the text branch. */
  lemma CapitalQuestionIsText()
    ensures !ImageRequest("what is the capital of France")
  {
    var m := "what is the capital of France";
    forall i, k, j | MatchAt(m, i, k, j)
      ensures false
    {
      NoVerbInCapitalQuestion(i, k);
    }
  }

  /** A verb inside a longer word is kept: "showcase" is not stripped. */
  lemma ShowcaseKept()
    ensures RemoveVerbsFrom("showcase", 0) == "showcase"
  {
    var m := "showcase";
    forall q, k | 0 <= q < |m|
      ensures !WholeVerbAt(m, q, k)
    {
      if WholeVerbAt(m, q, k) {
        VerbStart(m, q, k);
      }
    }
    RemoveNothingFrom(m, 0);
  }
}

=== FILE: dashboard_ui.dfy ===
/**
 * The browser side's pure pieces: the "N/A" fallbacks of the weather and
 * air-quality cards, the blank-input guard of the chat box, and the
 * paragraph splitting and character-by-character typing of a chat reply.
 * DOM elements are assumed present; timers become a sequential loop.
 */
module DashboardUi {
  import opened Maybe
  import opened JsString
  import AqiStatus
  import opened Json

  const NotAvailable: string := "N/A"

  /** `value ? `${value}${suffix}` : "N/A"`. */
  function NumberOrNotAvailable(v: Option<int>, suffix: string): (text: string)
    ensures text == NotAvailable <==> !TruthyNumber(v)
    ensures TruthyNumber(v) ==> text == IntToString(v.value) + suffix
  {
    if TruthyNumber(v) then
      var text := IntToString(v.value) + suffix;
      assert text[0] == IntToString(v.value)[0];
      text
    else NotAvailable
  }

  /** `value || fallback` for a string. */
  function TextOr(v: Option<string>, fallback: string): (text: string)
    ensures TruthyText(v) ==> text == v.value
    ensures !TruthyText(v) ==> text == fallback
  {
    if TruthyText(v) then v.value else fallback
  }

  // ---------------------------------------------------------------- weather card

  datatype MainBlock = MainBlock(temp: Option<int>, feelsLike: Option<int>, humidity: Option<int>)

  /** The fields of a weather document the card reads; `description` is `weather[0].description`. */
  datatype WeatherData = WeatherData(
    name: Option<string>,
    main: Option<MainBlock>,
    description: Option<string>,
    windSpeed: Option<int>,
    clouds: Option<int>)

  datatype WeatherView =
    | WeatherError(message: string)
    | WeatherCard(city: string, temperature: string, description: string, feelsLike: string,
                  humidity: string, windSpeed: string, clouds: string)

  const Celsius: string := "\U{00B0}C"

  /** `updateWeatherUI(data)`. */
  function UpdateWeather(data: Option<WeatherData>): (v: WeatherView)
    ensures v.WeatherError? <==> data.None? || data.value.main.None?
    ensures v.WeatherError? ==> v.message == "Unable to fetch weather data"
    ensures v.WeatherCard? ==>
              var d := data.value;
              var main := d.main.value;
              && (v.temperature == NotAvailable <==> !TruthyNumber(main.temp))
              && (v.feelsLike == NotAvailable <==> !TruthyNumber(main.feelsLike))
              && (v.humidity == NotAvailable <==> !TruthyNumber(main.humidity))
              && (v.windSpeed == NotAvailable <==> !TruthyNumber(d.windSpeed))
              && (v.clouds == NotAvailable <==> !TruthyNumber(d.clouds))
              && (!TruthyText(d.description) ==> v.description == NotAvailable)
              && (!TruthyText(d.name) ==> v.city == "Unknown City")
    // truthy readings are shown with their unit, names and descriptions as given
    ensures v.WeatherCard? ==>
              var d := data.value;
              var main := d.main.value;
              && (TruthyNumber(main.temp) ==> v.temperature == IntToString(main.temp.value) + Celsius)
              && (TruthyNumber(main.feelsLike) ==> v.feelsLike == IntToString(main.feelsLike.value) + Celsius)
              && (TruthyNumber(main.humidity) ==> v.humidity == IntToString(main.humidity.value) + "%")
              && (TruthyNumber(d.windSpeed) ==> v.windSpeed == IntToString(d.windSpeed.value) + " m/s")
              && (TruthyNumber(d.clouds) ==> v.clouds == IntToString(d.clouds.value) + "%")
              && (TruthyText(d.name) ==> v.city == d.name.value)
              && (TruthyText(d.description) ==> v.description == d.description.value)
  {
    if data.None? || data.value.main.None? then WeatherError("Unable to fetch weather data")
    else
      var d := data.value;
      var main := d.main.value;
      WeatherCard(
        TextOr(d.name, "Unknown City"),
        NumberOrNotAvailable(main.temp, Celsius),
        TextOr(d.description, NotAvailable),
        NumberOrNotAvailable(main.feelsLike, Celsius),
        NumberOrNotAvailable(main.humidity, "%"),
        NumberOrNotAvailable(d.windSpeed, " m/s"),
        NumberOrNotAvailable(d.clouds, "%"))
  }

  // ---------------------------------------------------------------- air-quality card

  datatype Components = Components(pm2_5: Option<int>, pm10: Option<int>, co: Option<int>, no2: Option<int>)

  datatype AirEntry = AirEntry(aqi: int, components: Components)

  /** The fields of an air-pollution document the card reads. */
  datatype AirData = AirData(list: Option<seq<AirEntry>>)

  datatype AirView =
    | AirError(message: string)
    | AirCard(city: string, status: string, pm2_5: string, pm10: string, co: string, no2: string)

  const Micrograms: string := " \U{00B5}g/m\U{00B3}"

  /** Where the pieces of a five-part concatenation sit in the result. */
  lemma PiecesOfConcat(a: string, b: string, c: string, d: string, e: string)
    ensures var s := a + b + c + d + e;
            && s[..|a|] == a
            && s[|a|..|a| + |b|] == b
            && s[|a| + |b|..|a| + |b| + |c|] == c
            && s[|s| - |d| - |e|..] == d + e
  {
    var s := a + b + c + d + e;
    assert s == a + (b + (c + (d + e)));
    assert s[|a|..] == b + (c + (d + e));
    assert s[|a|..][..|b|] == b;
    assert s[|a| + |b|..] == c + (d + e);
    assert s[|a| + |b|..][..|c|] == c;
    assert s == (a + b + c) + (d + e);
  }

  /** `"AQI: ${aqi} (${getAQIStatus(aqi)})"`: the number, then its band in parentheses. */
  function StatusLine(aqi: int): (line: string)
    ensures var number := IntToString(aqi);
            var band := AqiStatus.GetAqiStatus(aqi);
            && |line| == 5 + |number| + 2 + |band| + 1
            && line[..5] == "AQI: "
            && line[5..5 + |number|] == number
            && line[5 + |number|..7 + |number|] == " ("
            && line[|line| - |band| - 1..] == band + ")"
  {
    var number := IntToString(aqi);
    var band := AqiStatus.GetAqiStatus(aqi);
    PiecesOfConcat("AQI: ", number, " (", band, ")");
    "AQI: " + number + " (" + band + ")"
  }

  /** `updateAirQualityUI(data)`; the city is the constant of `"Ho Chi Minh City" || ...`. */
  function UpdateAirQuality(data: Option<AirData>): (v: AirView)
    ensures v.AirError? <==> data.None? || data.value.list.None? || data.value.list.value == []
    ensures v.AirError? ==> v.message == "Unable to fetch air quality data"
    ensures v.AirCard? ==>
              var first := data.value.list.value[0];
              && v.city == "Ho Chi Minh City"
              && v.status == StatusLine(first.aqi)
              && (v.pm2_5 == NotAvailable <==> !TruthyNumber(first.components.pm2_5))
              && (v.pm10 == NotAvailable <==> !TruthyNumber(first.components.pm10))
              && (v.co == NotAvailable <==> !TruthyNumber(first.components.co))
              && (v.no2 == NotAvailable <==> !TruthyNumber(first.components.no2))
    // truthy concentrations are shown in micrograms per cubic metre
    ensures v.AirCard? ==>
              var c := data.value.list.value[0].components;
              && (TruthyNumber(c.pm2_5) ==> v.pm2_5 == IntToString(c.pm2_5.value) + Micrograms)
              && (TruthyNumber(c.pm10) ==> v.pm10 == IntToString(c.pm10.value) + Micrograms)
              && (TruthyNumber(c.co) ==> v.co == IntToString(c.co.value) + Micrograms)
              && (TruthyNumber(c.no2) ==> v.no2 == IntToString(c.no2.value) + Micrograms)
  {
    if data.None? || data.value.list.None? || data.value.list.value == [] then
      AirError("Unable to fetch air quality data")
    else
      var first := data.value.list.value[0];
      var c := first.components;
      AirCard(
        "Ho Chi Minh City",
        StatusLine(first.aqi),
        NumberOrNotAvailable(c.pm2_5, Micrograms),
        NumberOrNotAvailable(c.pm10, Micrograms),
        NumberOrNotAvailable(c.co, Micrograms),
        NumberOrNotAvailable(c.no2, Micrograms))
  }

  /** Fed the provider's 1-5 index, the card always reads "Good". */
  lemma ProviderIndexReadsGood(data: AirData)
    requires data.list.Some? && data.list.value != []
    requires 1 <= data.list.value[0].aqi <= 5
    ensures UpdateAirQuality(Some(data)).AirCard?
    ensures UpdateAirQuality(Some(data)).status == "AQI: " + IntToString(data.list.value[0].aqi) + " (Good)"
  {
    var aqi := data.list.value[0].aqi;
    AqiStatus.ProviderScaleIsAlwaysGood(aqi);
    var prefix := "AQI: " + IntToString(aqi);
    assert StatusLine(aqi) == prefix + " (" + "Good" + ")";
    assert " (" + "Good" + ")" == " (Good)";
    assert prefix + " (" + "Good" + ")" == prefix + (" (" + "Good" + ")");
  }

  // ---------------------------------------------------------------- chat box

  /** `chatInput.value.trim()` when it is not empty: the message shown and posted. */
  function OutgoingMessage(input: string): (m: Option<string>)
    ensures m.None? <==> Blank(input)
    ensures m.Some? ==> m.value == Trim(input)
    ensures m.Some? ==> m.value != "" && !IsWhiteSpace(m.value[0]) && !IsWhiteSpace(m.value[|m.value| - 1])
  {
    var t := Trim(input);
    if t == "" then None else Some(t)
  }

  /**
   * The filter's verdict on one piece: kept iff it is not empty once
   * trimmed, which by `Trim`'s contract means it is not all white space.
   */
  function KeepIfNonBlank(p: string): seq<string> {
    if !Blank(p) then [p] else []
  }

  /** The verdict is exactly the `p.trim() !== ""` test. */
  lemma KeepIfNonBlankIsTrimTest(p: string)
    ensures KeepIfNonBlank(p) == if Trim(p) != "" then [p] else []
  {
  }

  /** `pieces.filter(p => p.trim() !== "")`. */
  function KeepNonBlank(pieces: seq<string>): (kept: seq<string>)
    ensures |kept| <= |pieces|
  {
    if |pieces| == 0 then [] else KeepIfNonBlank(pieces[0]) + KeepNonBlank(pieces[1..])
  }

  /** The filter keeps exactly the non-blank pieces, unchanged. */
  lemma {:induction false} KeepNonBlankFilters(pieces: seq<string>)
    ensures forall i :: 0 <= i < |KeepNonBlank(pieces)| ==>
              !Blank(KeepNonBlank(pieces)[i]) && KeepNonBlank(pieces)[i] in pieces
    ensures forall i :: 0 <= i < |pieces| && !Blank(pieces[i]) ==> pieces[i] in KeepNonBlank(pieces)
  {
    if |pieces| > 0 {
      var head := KeepIfNonBlank(pieces[0]);
      var rest := KeepNonBlank(pieces[1..]);
      KeepNonBlankFilters(pieces[1..]);
      assert KeepNonBlank(pieces) == head + rest;
      forall i | 0 <= i < |head + rest|
        ensures !Blank((head + rest)[i]) && (head + rest)[i] in pieces
      {
        if i >= |head| {
          var x := rest[i - |head|];
          assert (head + rest)[i] == x;
          var j :| 0 <= j < |pieces[1..]| && pieces[1..][j] == x;
          assert pieces[j + 1] == x;
        }
      }
      forall i | 0 <= i < |pieces| && !Blank(pieces[i])
        ensures pieces[i] in head + rest
      {
        if i > 0 {
          assert pieces[i] == pieces[1..][i - 1];
        }
      }
    }
  }

  /** The filter decides the first piece on its own. */
  lemma KeepNonBlankCons(x: string, rest: seq<string>)
    ensures KeepNonBlank([x] + rest) == KeepIfNonBlank(x) + KeepNonBlank(rest)
  {
    assert ([x] + rest)[1..] == rest;
  }

  /** Filtering keeps order: it distributes over concatenation. */
  lemma {:induction false} KeepNonBlankAppend(a: seq<string>, b: seq<string>)
    ensures KeepNonBlank(a + b) == KeepNonBlank(a) + KeepNonBlank(b)
  {
    if |a| > 0 {
      var head, tail := KeepIfNonBlank(a[0]), KeepNonBlank(b);
      calc {
        KeepNonBlank(a + b);
        { assert a + b == [a[0]] + (a[1..] + b); }
        KeepNonBlank([a[0]] + (a[1..] + b));
        { KeepNonBlankCons(a[0], a[1..] + b); }
        head + KeepNonBlank(a[1..] + b);
        { KeepNonBlankAppend(a[1..], b); }
        head + (KeepNonBlank(a[1..]) + tail);
        (head + KeepNonBlank(a[1..])) + tail;
        { KeepNonBlankCons(a[0], a[1..]); assert a == [a[0]] + a[1..]; }
        KeepNonBlank(a) + tail;
      }
    } else {
      assert a + b == b;
    }
  }

  /** Pieces that are all non-blank pass the filter unchanged. */
  lemma {:induction false} KeepNonBlankKeepsAll(pieces: seq<string>)
    requires forall i :: 0 <= i < |pieces| ==> !Blank(pieces[i])
    ensures KeepNonBlank(pieces) == pieces
  {
    if |pieces| > 0 {
      KeepNonBlankKeepsAll(pieces[1..]);
      assert pieces == [pieces[0]] + pieces[1..];
    }
  }

  /** The paragraphs of a reply: its newline-separated lines that are not blank. */
  function Paragraphs(text: string): (ps: seq<string>)
    ensures ps == KeepNonBlank(Split(text, '\n'))
    ensures forall i :: 0 <= i < |ps| ==> ps[i] in Split(text, '\n')
    ensures forall i :: 0 <= i < |ps| ==> '\n' !in ps[i] && !Blank(ps[i])
    ensures var lines := Split(text, '\n');
            forall i :: 0 <= i < |lines| && !Blank(lines[i]) ==> lines[i] in ps
  {
    var lines := Split(text, '\n');
    KeepNonBlankFilters(lines);
    MembersOfLines(lines, KeepNonBlank(lines));
    KeepNonBlank(lines)
  }

  /** Pieces drawn from newline-free lines are newline-free. */
  lemma MembersOfLines(lines: seq<string>, ps: seq<string>)
    requires forall k :: 0 <= k < |lines| ==> '\n' !in lines[k]
    requires forall i :: 0 <= i < |ps| ==> ps[i] in lines
    ensures forall i :: 0 <= i < |ps| ==> '\n' !in ps[i]
  {
    forall i | 0 <= i < |ps|
      ensures '\n' !in ps[i]
    {
      var k :| 0 <= k < |lines| && lines[k] == ps[i];
    }
  }

  /** The paragraphs of newline-free lines joined by newlines are the non-blank lines. */
  lemma ParagraphsOfLines(lines: seq<string>)
    requires |lines| >= 1
    requires forall i :: 0 <= i < |lines| ==> '\n' !in lines[i]
    ensures Paragraphs(Join(lines, '\n')) == KeepNonBlank(lines)
  {
    SplitOfJoin(lines, '\n');
  }

  /** Joining paragraphs with newlines and splitting again gives them back. */
  lemma ParagraphsOfJoin(ps: seq<string>)
    requires |ps| >= 1
    requires forall i :: 0 <= i < |ps| ==> '\n' !in ps[i] && !Blank(ps[i])
    ensures Paragraphs(Join(ps, '\n')) == ps
  {
    ParagraphsOfLines(ps);
    KeepNonBlankKeepsAll(ps);
  }

  /** Blank lines between paragraphs produce no empty `<p>`. */
  lemma BlankLinesVanish(a: string, b: string, gap: string)
    requires '\n' !in a && '\n' !in b && '\n' !in gap
    requires !Blank(a) && !Blank(b) && Blank(gap)
    ensures Paragraphs(a + "\n" + gap + "\n" + b) == [a, b]
  {
    var lines := [a, gap, b];
    assert lines[1..] == [gap, b] && [gap, b][1..] == [b];
    assert Join([gap, b], '\n') == gap + "\n" + b;
    assert Join(lines, '\n') == a + "\n" + gap + "\n" + b;
    ParagraphsOfLines(lines);
    assert KeepIfNonBlank(gap) == [];
    assert KeepNonBlank([b]) == [b];
    assert KeepNonBlank([gap, b]) == [b];
    assert KeepNonBlank(lines) == [a] + [b];
  }

  /** One DOM effect of the typing animation. */
  datatype DomEvent = CreateParagraph | AppendChar(c: char)

  /** The effects of typing one paragraph's characters, in index order. */
  function CharEvents(s: string): (events: seq<DomEvent>)
    ensures |events| == |s|
    ensures forall i :: 0 <= i < |s| ==> events[i] == AppendChar(s[i])
  {
    if s == [] then [] else CharEvents(s[..|s| - 1]) + [AppendChar(s[|s| - 1])]
  }

  /** Reference trace: per paragraph, a new `<p>` and then its characters. */
  function Script(ps: seq<string>): seq<DomEvent> {
    if ps == [] then [] else Script(ps[..|ps| - 1]) + [CreateParagraph] + CharEvents(ps[|ps| - 1])
  }

  lemma ScriptAppend(ps: seq<string>, p: string)
    ensures Script(ps + [p]) == Script(ps) + [CreateParagraph] + CharEvents(p)
  {
    assert (ps + [p])[..|ps|] == ps;
  }

  /** The inner timer chain of `typeText`: one paragraph, one character per tick. */
  method TypeParagraph(p: string) returns (typed: string, events: seq<DomEvent>)
    ensures typed == p
    ensures events == CharEvents(p)
  {
    typed := "";
    events := [];
    var currentChar := 0;
    while currentChar < |p|
      invariant 0 <= currentChar <= |p|
      invariant typed == p[..currentChar]
      invariant events == CharEvents(typed)
    {
      typed := typed + [p[currentChar]];
      events := events + [AppendChar(p[currentChar])];
      currentChar := currentChar + 1;
      assert typed[..|typed| - 1] == p[..currentChar - 1];
    }
  }

  /** The outer timer chain of `typeText`: one new `<p>` per paragraph, then its characters. */
  method TypeParagraphs(paragraphs: seq<string>) returns (dom: seq<string>, events: seq<DomEvent>)
    ensures dom == paragraphs
    ensures events == Script(paragraphs)
  {
    var currentParagraph := 0;
    dom := [];
    events := [];
    while currentParagraph < |paragraphs|
      invariant 0 <= currentParagraph <= |paragraphs|
      invariant dom == paragraphs[..currentParagraph]
      invariant events == Script(dom)
    {
      var p := paragraphs[currentParagraph];
      var typed, charEvents := TypeParagraph(p);
      ScriptAppend(dom, typed);
      events := events + [CreateParagraph] + charEvents;
      dom := dom + [typed];
      assert paragraphs[..currentParagraph + 1] == paragraphs[..currentParagraph] + [p];
      currentParagraph := currentParagraph + 1;
    }
    assert paragraphs[..currentParagraph] == paragraphs;
  }

  /**
   * `typeText(element, text)` with its timer chain run to completion: the
   * texts of the `<p>` elements created, and the DOM effects in order.
   */
  method TypeText(text: string) returns (dom: seq<string>, events: seq<DomEvent>)
    ensures dom == Paragraphs(text)
    ensures events == Script(Paragraphs(text))
  {
    dom, events := TypeParagraphs(Paragraphs(text));
  }
}

=== FILE: end_to_end.dfy ===
/** Properties that tie the browser's chat box to the gateway's chat handler. */
module EndToEnd {
  import opened Maybe
  import opened JsString
  import DashboardUi
  import Gateway
  import ChatIntent

  /**
   * Whatever the chat box decides to send, the gateway never answers it with
   * "Message is required": the client's blank-input guard is at least as
   * strict as the server's truthiness check.
   */
  lemma ClientMessagesAreNeverRejected(input: string, openAiKey: string,
                                       image: Gateway.Outcome<string>, completion: Gateway.Outcome<string>)
    requires DashboardUi.OutgoingMessage(input).Some?
    ensures Gateway.Chat(openAiKey, DashboardUi.OutgoingMessage(input), image, completion).response.status != 400
  {
  }

  /**
   * Conversely, a blank input never reaches the gateway, while the same text
   * posted by another client would: the two guards differ exactly on blank,
   * non-empty strings.
   */
  lemma BlankInputsStayLocal(input: string, openAiKey: string,
                             image: Gateway.Outcome<string>, completion: Gateway.Outcome<string>)
    requires Blank(input) && input != ""
    ensures DashboardUi.OutgoingMessage(input).None?
    ensures Gateway.Chat(openAiKey, Some(input), image, completion).response.status != 400
  {
  }
}

=== FILE: gateway.dfy ===
/**
 * The gateway's request handlers as pure functions. Each takes the state it
 * reads (a cache store, the clock, configuration) and the outcome of the
 * upstream call it might make, and returns the response, the new store and
 * the list of upstream calls it actually made. "No network access" is
 * therefore `calls == []`.
 */
module Gateway {
  import opened Maybe
  import opened Json
  import opened JsString
  import opened CacheKeys
  import TtlCache
  import OriginPolicy
  import ChatIntent

  datatype Response = Response(status: nat, body: Json)

  /** `res.status(status).json({ error: message })`. */
  function ErrorResponse(status: nat, message: string): Response {
    Response(status, Single("error", Str(message)))
  }

  /**
   * What one outbound HTTP call produced: the parsed body of a 2xx answer,
   * the status and body text of any other answer, or the message of an
   * error thrown on the way (network failure, unparsable body).
   */
  datatype Outcome<T> = Fetched(data: T) | HttpError(status: nat, text: string) | Thrown(message: string)

  /** An outbound call to one of the providers. */
  datatype Call =
    | Fetch(resource: Resource, lat: string, lon: string)
    | ImageGeneration(prompt: string)
    | Completion(message: string)
    | PhotoSearch(page: int)

  /** The message of the error a handler's `try` block raises for a failed outcome. */
  function FailureMessage<T>(api: string, o: Outcome<T>): (msg: string)
    requires !o.Fetched?
    // a thrown error is reported with its own message
    ensures o.Thrown? ==> msg == o.message
    // a non-2xx answer names the provider, then the status in decimal, and ends with the body text
    ensures o.HttpError? ==>
              var n := |api| + 8;
              var digits := NatToString(o.status);
              && |msg| == n + |digits| + 3 + |o.text|
              && msg[..n] == api + " Error: "
              && AllDigits(msg[n..n + |digits|]) && DigitsValue(msg[n..n + |digits|]) == o.status
              && msg[n + |digits|..n + |digits| + 3] == " - "
              && msg[|msg| - |o.text|..] == o.text
  {
    match o
    case HttpError(status, text) =>
      var head := api + " Error: ";
      var digits := NatToString(status);
      var msg := head + digits + " - " + text;
      var n := |head|;
      assert msg == head + (digits + (" - " + text));
      assert msg[..n] == head;
      assert msg[n..] == digits + (" - " + text);
      assert msg[n..][..|digits|] == digits;
      assert msg[n..n + |digits|] == digits;
      assert msg[n + |digits|..] == " - " + text;
      assert msg[n + |digits|..][..3] == " - ";
      msg
    case Thrown(message) => message
  }

  // ---------------------------------------------------------------- weather and air quality

  /** The resource name in the 500 message of its endpoint. */
  function DataName(res: Resource): string {
    match res
    case Weather => "weather data"
    case AirQuality => "air quality data"
  }

  /** The provider name in the error thrown for a non-2xx answer. */
  function ApiName(res: Resource): string {
    match res
    case Weather => "Weather API"
    case AirQuality => "Air Quality API"
  }

  const CoordinatesRequired: string := "Latitude and longitude are required."

  /** What a cache-backed handler returns: the response, its store afterwards, the calls made. */
  datatype Handled = Handled(response: Response, cache: TtlCache.Cache<Json>, calls: seq<Call>)

  /** The key's entry is live and truthy, which `if (cachedData)` needs to answer from the cache. */
  predicate ServableHit(cache: TtlCache.Cache<Json>, key: string, now: int) {
    TtlCache.Live(cache, key, now) && Truthy(cache[key].value)
  }

  /**
   * `/api/weather` and `/api/air-quality`: validate `lat` and `lon`, look
   * the key up, answer a truthy hit from the cache, otherwise call the
   * provider, cache and return its document, or answer 500.
   */
  function CachedFetch(res: Resource, cache: TtlCache.Cache<Json>, lat: Option<string>, lon: Option<string>,
                       now: int, upstream: Outcome<Json>): (h: Handled)
    // validation comes first and touches neither the cache nor the network
    ensures !(TruthyText(lat) && TruthyText(lon)) ==>
              h.response == ErrorResponse(400, CoordinatesRequired) && h.cache == cache && h.calls == []
    // a truthy live entry is the answer: no call, store unchanged
    ensures TruthyText(lat) && TruthyText(lon) && ServableHit(cache, Key(res, lat.value, lon.value), now) ==>
              h.response == Response(200, cache[Key(res, lat.value, lon.value)].value)
              && h.cache == cache && h.calls == []
    // otherwise exactly one call to the resource's provider with the raw coordinates
    ensures TruthyText(lat) && TruthyText(lon) && !ServableHit(cache, Key(res, lat.value, lon.value), now) ==>
              h.calls == [Fetch(res, lat.value, lon.value)]
    // a fetched document is returned and stays served for the whole time-to-live
    ensures TruthyText(lat) && TruthyText(lon) && !ServableHit(cache, Key(res, lat.value, lon.value), now)
            && upstream.Fetched? ==>
              && h.response == Response(200, upstream.data)
              && forall t :: now <= t <= now + TtlCache.Ttl ==>
                   TtlCache.Get(h.cache, Key(res, lat.value, lon.value), t).value == Some(upstream.data)
    // a failed call answers 500 "Failed to fetch ..." and stores nothing
    ensures TruthyText(lat) && TruthyText(lon) && !ServableHit(cache, Key(res, lat.value, lon.value), now)
            && !upstream.Fetched? ==>
              && h.response == ErrorResponse(500, "Failed to fetch " + DataName(res) + ": "
                                                  + FailureMessage(ApiName(res), upstream))
              && forall k, t :: now <= t ==> TtlCache.Get(h.cache, k, t).value == TtlCache.Get(cache, k, t).value
    // other keys answer as before
    ensures TruthyText(lat) && TruthyText(lon) ==>
              forall k, t :: k != Key(res, lat.value, lon.value) && now <= t ==>
                TtlCache.Get(h.cache, k, t).value == TtlCache.Get(cache, k, t).value
  {
    if !TruthyText(lat) || !TruthyText(lon) then
      Handled(ErrorResponse(400, CoordinatesRequired), cache, [])
    else
      var key := Key(res, lat.value, lon.value);
      var lookup := TtlCache.Get(cache, key, now);
      if lookup.value.Some? && Truthy(lookup.value.value) then
        Handled(Response(200, lookup.value.value), lookup.cache, [])
      else
        var calls := [Fetch(res, lat.value, lon.value)];
        match upstream
        case Fetched(data) =>
          Handled(Response(200, data), TtlCache.Set(lookup.cache, key, data, now), calls)
        case _ =>
          Handled(ErrorResponse(500, "Failed to fetch " + DataName(res) + ": "
                                     + FailureMessage(ApiName(res), upstream)),
                  lookup.cache, calls)
  }

  // ---------------------------------------------------------------- chat

  const MessageRequired: string := "Message is required."
  const OpenAiKeyMissing: string := "OpenAI API key is missing."
  const ImageReply: string := "Here is your image:"
  const OpenAiFailure: string := "Failed to fetch response from OpenAI API: "

  /** A handler's response and the calls it made; these endpoints keep no state. */
  datatype Reply = Reply(response: Response, calls: seq<Call>)

  /**
   * `/chat`: a required message, then either the image branch (prompt
   * stripped of the verbs) or the text-completion branch.
   */
  function Chat(openAiKey: string, message: Option<string>, image: Outcome<string>,
                completion: Outcome<string>): (r: Reply)
    ensures !TruthyText(message) ==> r == Reply(ErrorResponse(400, MessageRequired), [])
    ensures TruthyText(message) && openAiKey == "" ==> r == Reply(ErrorResponse(500, OpenAiKeyMissing), [])
    ensures TruthyText(message) && openAiKey != "" && ChatIntent.ImageIntent(message.value) ==>
              && r.calls == [ImageGeneration(ChatIntent.ImagePrompt(message.value))]
              && (image.Fetched? ==>
                    r.response == Response(200, Obj(map["reply" := Str(ImageReply), "imageUrl" := Str(image.data)])))
    ensures TruthyText(message) && openAiKey != "" && !ChatIntent.ImageIntent(message.value) ==>
              && r.calls == [Completion(message.value)]
              && (completion.Fetched? ==> r.response == Response(200, Single("reply", Str(completion.data))))
    // a failed provider call is reported as 500 with the thrown error's message
    ensures TruthyText(message) && openAiKey != "" && ChatIntent.ImageIntent(message.value) && !image.Fetched? ==>
              r.response == ErrorResponse(500, OpenAiFailure + FailureMessage("OpenAI Image API", image))
    ensures TruthyText(message) && openAiKey != "" && !ChatIntent.ImageIntent(message.value) && !completion.Fetched? ==>
              r.response == ErrorResponse(500, OpenAiFailure + FailureMessage("OpenAI API", completion))
    ensures r.response.status == 500 && r.calls != [] ==>
              exists detail :: r.response == ErrorResponse(500, OpenAiFailure + detail)
  {
    if !TruthyText(message) then Reply(ErrorResponse(400, MessageRequired), [])
    else if openAiKey == "" then Reply(ErrorResponse(500, OpenAiKeyMissing), [])
    else
      var m := message.value;
      if ChatIntent.ImageRequest(m) then
        var calls := [ImageGeneration(ChatIntent.ImagePrompt(m))];
        match image
        case Fetched(url) =>
          Reply(Response(200, Obj(map["reply" := Str(ImageReply), "imageUrl" := Str(url)])), calls)
        case _ =>
          Reply(ErrorResponse(500, OpenAiFailure + FailureMessage("OpenAI Image API", image)), calls)
      else
        var calls := [Completion(m)];
        match completion
        case Fetched(text) => Reply(Response(200, Single("reply", Str(text))), calls)
        case _ =>
          Reply(ErrorResponse(500, OpenAiFailure + FailureMessage("OpenAI API", completion)), calls)
  }

  // ---------------------------------------------------------------- photo search

  /** A search result, reduced to `src.original`. */
  datatype Photo = Photo(original: string)

  const PagesSearched: int := 50

  /** `Math.floor(Math.random() * 50) + 1` for a draw `0 <= random < 1`. */
  function RandomPage(random: real): (page: int)
    requires 0.0 <= random < 1.0
    ensures 1 <= page <= PagesSearched
  {
    (random * PagesSearched as real).Floor + 1
  }

  /** Every page of the range is drawn for some value of `Math.random()`. */
  lemma EveryPageReachable(page: int)
    requires 1 <= page <= PagesSearched
    ensures RandomPage((page - 1) as real / PagesSearched as real) == page
  {
  }

  const NoImages: string := "No images found."
  const PexelsFailure: string := "Failed to fetch image from Pexels: "

  /** `/api/pexels`: one search on a random page; the first photo, 404 when there is none. */
  function PhotoSearchHandler(pexelsKey: string, random: real, photos: Outcome<Option<seq<Photo>>>): (r: Reply)
    requires 0.0 <= random < 1.0
    ensures pexelsKey == "" ==>
              r == Reply(ErrorResponse(500, PexelsFailure + "Pexels API key is missing"), [])
    ensures pexelsKey != "" ==> r.calls == [PhotoSearch(RandomPage(random))]
    ensures r.response.status == 200 <==>
              pexelsKey != "" && photos.Fetched? && photos.data.Some? && |photos.data.value| > 0
    ensures r.response.status == 200 ==> r.response.body == Single("imageUrl", Str(photos.data.value[0].original))
    ensures r.response.status == 404 <==>
              pexelsKey != "" && photos.Fetched? && (photos.data.None? || photos.data.value == [])
    ensures r.response.status == 404 ==> r.response == ErrorResponse(404, NoImages)
    ensures pexelsKey != "" && !photos.Fetched? ==>
              r.response == ErrorResponse(500, PexelsFailure + FailureMessage("Pexels API", photos))
    ensures r.response.status in {200, 404, 500}
  {
    if pexelsKey == "" then
      Reply(ErrorResponse(500, PexelsFailure + "Pexels API key is missing"), [])
    else
      var calls := [PhotoSearch(RandomPage(random))];
      match photos
      case Fetched(found) =>
        if found.Some? && |found.value| > 0 then
          Reply(Response(200, Single("imageUrl", Str(found.value[0].original))), calls)
        else
          Reply(ErrorResponse(404, NoImages), calls)
      case _ =>
        Reply(ErrorResponse(500, PexelsFailure + FailureMessage("Pexels API", photos)), calls)
  }

  // ---------------------------------------------------------------- the whole gateway

  /** The two caches, one per resource. */
  datatype Stores = Stores(weather: TtlCache.Cache<Json>, airQuality: TtlCache.Cache<Json>)

  function Store(st: Stores, res: Resource): TtlCache.Cache<Json> {
    match res
    case Weather => st.weather
    case AirQuality => st.airQuality
  }

  function WithStore(st: Stores, res: Resource, c: TtlCache.Cache<Json>): (st': Stores)
    ensures Store(st', res) == c
    ensures forall other :: other != res ==> Store(st', other) == Store(st, other)
  {
    match res
    case Weather => st.(weather := c)
    case AirQuality => st.(airQuality := c)
  }

  datatype Request =
    | DataRequest(resource: Resource, lat: Option<string>, lon: Option<string>)
    | ChatRequest(message: Option<string>)
    | PhotoRequest

  /** Everything outside the process a request may observe. */
  datatype Env = Env(
    now: int,
    random: real,
    openAiKey: string,
    pexelsKey: string,
    weather: Outcome<Json>,
    airQuality: Outcome<Json>,
    image: Outcome<string>,
    completion: Outcome<string>,
    photos: Outcome<Option<seq<Photo>>>)

  function UpstreamFor(env: Env, res: Resource): Outcome<Json> {
    match res
    case Weather => env.weather
    case AirQuality => env.airQuality
  }

  /** A request refused by the origin policy reaches no handler. */
  datatype Served = Blocked | Served(response: Response, stores: Stores, calls: seq<Call>)

  /** One request through the origin policy and the router. */
  function Handle(st: Stores, origin: Option<string>, req: Request, env: Env): (s: Served)
    requires 0.0 <= env.random < 1.0
    ensures s.Blocked? <==> !OriginPolicy.Allows(origin)
  {
    if !OriginPolicy.Allows(origin) then Blocked
    else
      match req
      case DataRequest(res, lat, lon) =>
        var h := CachedFetch(res, Store(st, res), lat, lon, env.now, UpstreamFor(env, res));
        Served(h.response, WithStore(st, res, h.cache), h.calls)
      case ChatRequest(message) =>
        var r := Chat(env.openAiKey, message, env.image, env.completion);
        Served(r.response, st, r.calls)
      case PhotoRequest =>
        var r := PhotoSearchHandler(env.pexelsKey, env.random, env.photos);
        Served(r.response, st, r.calls)
  }
}

=== FILE: gateway_properties.dfy ===
/**
 * Properties of the gateway that relate several requests, or the router
 * to the handlers behind it.
 */
module GatewayProperties {
  import opened Maybe
  import opened Json
  import opened CacheKeys
  import TtlCache
  import OriginPolicy
  import ChatIntent
  import opened Gateway

  /**
   * Two identical requests within the time-to-live of a truthy answer: the
   * provider is called at most once, and when the first request called it
   * the second gets the same response from the cache.
   */
  lemma RepeatWithinTtl(res: Resource, c: TtlCache.Cache<Json>, lat: Option<string>, lon: Option<string>,
                        t1: int, u1: Outcome<Json>, t2: int, u2: Outcome<Json>)
    requires CachedFetch(res, c, lat, lon, t1, u1).response.status == 200
    requires Truthy(CachedFetch(res, c, lat, lon, t1, u1).response.body)
    requires t1 <= t2 <= t1 + TtlCache.Ttl
    ensures var h1 := CachedFetch(res, c, lat, lon, t1, u1);
            var h2 := CachedFetch(res, h1.cache, lat, lon, t2, u2);
            && |h1.calls| + |h2.calls| <= 1
            && (h1.calls != [] ==> h2.response == h1.response && h2.calls == [] && h2.cache == h1.cache)
  {
    var h1 := CachedFetch(res, c, lat, lon, t1, u1);
    var key := Key(res, lat.value, lon.value);
    if h1.calls != [] {
      assert TtlCache.Get(h1.cache, key, t2).value == Some(u1.data);
    }
  }

  /** Once the time-to-live has run out, the same request calls the provider again, exactly once. */
  lemma ExpiredEntryIsRefetched(res: Resource, c: TtlCache.Cache<Json>, lat: Option<string>, lon: Option<string>,
                                t1: int, u1: Outcome<Json>, t2: int, u2: Outcome<Json>)
    requires CachedFetch(res, c, lat, lon, t1, u1).calls != [] && u1.Fetched?
    requires t1 + TtlCache.Ttl < t2
    ensures CachedFetch(res, CachedFetch(res, c, lat, lon, t1, u1).cache, lat, lon, t2, u2).calls
            == [Fetch(res, lat.value, lon.value)]
  {
    var h1 := CachedFetch(res, c, lat, lon, t1, u1);
    var key := Key(res, lat.value, lon.value);
    assert TtlCache.Get(h1.cache, key, t2).value == None;
  }

  /**
   * A document JavaScript finds falsy (`null`, `0`, `false`, `""`) is cached
   * but never answered from the cache: `if (cachedData)` treats it as a miss.
   */
  lemma FalsyDocumentIsRefetched(res: Resource, c: TtlCache.Cache<Json>, lat: Option<string>, lon: Option<string>,
                                 t1: int, data: Json, t2: int, u2: Outcome<Json>)
    requires CachedFetch(res, c, lat, lon, t1, Fetched(data)).calls != []
    requires !Truthy(data) && t1 <= t2 <= t1 + TtlCache.Ttl
    ensures CachedFetch(res, CachedFetch(res, c, lat, lon, t1, Fetched(data)).cache, lat, lon, t2, u2).calls
            == [Fetch(res, lat.value, lon.value)]
  {
    var h1 := CachedFetch(res, c, lat, lon, t1, Fetched(data));
    var key := Key(res, lat.value, lon.value);
    assert TtlCache.Get(h1.cache, key, t2).value == Some(data);
  }

  /** A coordinate request without `lat` or `lon` is answered 400 with no cache or network access. */
  lemma ValidationPrecedesNetwork(st: Stores, origin: Option<string>, res: Resource,
                                  lat: Option<string>, lon: Option<string>, env: Env)
    requires 0.0 <= env.random < 1.0 && OriginPolicy.Allows(origin)
    requires !TruthyText(lat) || !TruthyText(lon)
    ensures Handle(st, origin, DataRequest(res, lat, lon), env)
            == Served(ErrorResponse(400, CoordinatesRequired), st, [])
  {
    var h := CachedFetch(res, Store(st, res), lat, lon, env.now, UpstreamFor(env, res));
    assert WithStore(st, res, h.cache) == st;
  }

  /**
   * Each request touches at most the store of its own resource: chat and
   * photo requests touch none, a coordinate request leaves the other one as it was.
   */
  lemma StoresStaySeparate(st: Stores, origin: Option<string>, req: Request, env: Env, other: Resource)
    requires 0.0 <= env.random < 1.0 && OriginPolicy.Allows(origin)
    requires req.DataRequest? ==> other != req.resource
    ensures Store(Handle(st, origin, req, env).stores, other) == Store(st, other)
  {
  }

  /**
   * What a coordinate request answers and calls depends on its own store
   * only: a weather entry is never served to an air-quality request.
   */
  lemma OtherStoreIsIrrelevant(st1: Stores, st2: Stores, origin: Option<string>, res: Resource,
                               lat: Option<string>, lon: Option<string>, env: Env)
    requires 0.0 <= env.random < 1.0 && OriginPolicy.Allows(origin)
    requires Store(st1, res) == Store(st2, res)
    ensures var s1 := Handle(st1, origin, DataRequest(res, lat, lon), env);
            var s2 := Handle(st2, origin, DataRequest(res, lat, lon), env);
            s1.response == s2.response && s1.calls == s2.calls
            && Store(s1.stores, res) == Store(s2.stores, res)
  {
  }

  /** Coordinate endpoints answer 200, 400 or 500, and every 500 says "Failed to fetch ...". */
  lemma CoordinateResponses(st: Stores, origin: Option<string>, res: Resource,
                            lat: Option<string>, lon: Option<string>, env: Env)
    requires 0.0 <= env.random < 1.0 && OriginPolicy.Allows(origin)
    ensures var s := Handle(st, origin, DataRequest(res, lat, lon), env);
            && s.response.status in {200, 400, 500}
            && (s.response.status == 500 ==>
                  exists detail :: s.response == ErrorResponse(500, "Failed to fetch " + DataName(res) + ": " + detail))
  {
    var h := CachedFetch(res, Store(st, res), lat, lon, env.now, UpstreamFor(env, res));
    if h.response.status == 500 {
      var u := UpstreamFor(env, res);
      assert h.response == ErrorResponse(500, "Failed to fetch " + DataName(res) + ": "
                                              + FailureMessage(ApiName(res), u));
    }
  }

  /**
   * With a key configured, a chat message goes to exactly one provider:
   * the image provider, with the verbs stripped, iff the intent pattern
   * matches; the text provider, with the message as sent, otherwise.
   */
  lemma ChatCallsOneProvider(st: Stores, origin: Option<string>, m: string, env: Env)
    requires 0.0 <= env.random < 1.0 && OriginPolicy.Allows(origin)
    requires m != "" && env.openAiKey != ""
    ensures var s := Handle(st, origin, ChatRequest(Some(m)), env);
            && s.stores == st
            && (ChatIntent.ImageIntent(m) ==> s.calls == [ImageGeneration(ChatIntent.ImagePrompt(m))])
            && (!ChatIntent.ImageIntent(m) ==> s.calls == [Completion(m)])
  {
  }

  /** The worked image request reaches the image provider with the verb stripped. */
  lemma SunsetIsRoutedToImages(st: Stores, env: Env)
    requires 0.0 <= env.random < 1.0 && env.openAiKey != ""
    ensures Handle(st, None, ChatRequest(Some("generate an image of a sunset")), env).calls
            == [ImageGeneration("an image of a sunset")]
  {
    ChatIntent.SunsetIsImageRequest();
    ChatIntent.SunsetPrompt();
    ChatCallsOneProvider(st, None, "generate an image of a sunset", env);
  }

  /** Messages without the verb-and-noun shape reach the text provider unchanged. */
  lemma QuestionsAreRoutedToText(st: Stores, env: Env)
    requires 0.0 <= env.random < 1.0 && env.openAiKey != ""
    ensures Handle(st, None, ChatRequest(Some("what is the capital of France")), env).calls
            == [Completion("what is the capital of France")]
    ensures Handle(st, None, ChatRequest(Some("show me images")), env).calls
            == [Completion("show me images")]
  {
    ChatIntent.CapitalQuestionIsText();
    ChatIntent.ShowMeImagesIsText();
    ChatCallsOneProvider(st, None, "what is the capital of France", env);
    ChatCallsOneProvider(st, None, "show me images", env);
  }

  /** A foreign origin is refused before any handler runs; a missing one is served. */
  lemma OriginEnforcement(st: Stores, req: Request, env: Env)
    requires 0.0 <= env.random < 1.0
    ensures Handle(st, Some("https://evil.example"), req, env) == Blocked
    ensures Handle(st, None, req, env).Served?
  {
    OriginPolicy.RefusedExamples();
  }
}

=== FILE: js_string.dfy ===
/**
 * The pieces of JavaScript string behaviour the dashboard relies on:
 * the character classes of regular expressions, `\b`, case-insensitive
 * matching of ASCII patterns, `String.prototype.trim`, `split` on one
 * character, and decimal formatting of integers in template literals.
 */
module JsString {

  /** `\w` outside Unicode mode: ASCII letters, digits and `_`. */
  predicate IsWordChar(c: char) {
    ('a' <= c <= 'z') || ('A' <= c <= 'Z') || ('0' <= c <= '9') || c == '_'
  }

  /** LineTerminator (ECMAScript section 12.3): the characters `.` does not match. */
  predicate IsLineTerminator(c: char) {
    c == '\n' || c == '\r' || c == '\U{2028}' || c == '\U{2029}'
  }

  /** WhiteSpace or LineTerminator (ECMAScript sections 12.2 and 12.3): what `trim` removes. */
  predicate IsWhiteSpace(c: char) {
    || IsLineTerminator(c)
    || c == '\t' || c == '\U{000B}' || c == '\U{000C}' || c == ' ' || c == '\U{00A0}'
    || c == '\U{1680}' || ('\U{2000}' <= c <= '\U{200A}') || c == '\U{202F}'
    || c == '\U{205F}' || c == '\U{3000}' || c == '\U{FEFF}'
  }

  /** True iff every character of `s` is white space (so `s.trim()` is empty). */
  predicate Blank(s: string) {
    forall i :: 0 <= i < |s| ==> IsWhiteSpace(s[i])
  }

  /**
   * Case folding of the `i` flag outside Unicode mode, seen from an ASCII
   * pattern: only `A`-`Z` fold, since no other character canonicalises to
   * an ASCII letter.
   */
  function LowerAscii(c: char): (d: char)
    ensures 'a' <= d <= 'z' ==> ('a' <= c <= 'z' || 'A' <= c <= 'Z')
  {
    if 'A' <= c <= 'Z' then (c as int + 32) as char else c
  }

  /** `\b` at position `p` of `s`: a word character on exactly one side. */
  predicate IsBoundary(s: string, p: int): (b: bool)
    requires 0 <= p <= |s|
    ensures p == 0 ==> (b <==> |s| > 0 && IsWordChar(s[0]))
    ensures p == |s| ==> (b <==> |s| > 0 && IsWordChar(s[|s| - 1]))
    ensures 0 < p < |s| && IsWordChar(s[p - 1]) == IsWordChar(s[p]) ==> !b
    ensures 0 < p < |s| && IsWordChar(s[p - 1]) != IsWordChar(s[p]) ==> b
  {
    (p > 0 && IsWordChar(s[p - 1])) != (p < |s| && IsWordChar(s[p]))
  }

  /** The lower-case pattern `w` matches `s` at `i`, ignoring ASCII case. */
  predicate WordAt(s: string, i: int, w: string) {
    0 <= i && i + |w| <= |s| && forall k :: 0 <= k < |w| ==> LowerAscii(s[i + k]) == w[k]
  }

  /** A pattern made of lower-case ASCII letters only. */
  predicate LetterWord(w: string) {
    forall k :: 0 <= k < |w| ==> 'a' <= w[k] <= 'z'
  }

  /** Every character matched by a letter pattern is a word character. */
  lemma WordAtIsWordChars(s: string, i: int, w: string, t: int)
    requires WordAt(s, i, w) && LetterWord(w)
    requires i <= t < i + |w|
    ensures IsWordChar(s[t])
  {
    assert LowerAscii(s[i + (t - i)]) == w[t - i];
  }

  // ---------------------------------------------------------------- trim

  /** Index of the first character `trim` keeps, scanning from `i`. */
  function TrimStartIndex(s: string, i: nat): (k: nat)
    requires i <= |s|
    decreases |s| - i
    ensures i <= k <= |s|
    ensures forall t :: i <= t < k ==> IsWhiteSpace(s[t])
    ensures k < |s| ==> !IsWhiteSpace(s[k])
  {
    if i == |s| || !IsWhiteSpace(s[i]) then i else TrimStartIndex(s, i + 1)
  }

  /** One past the last character `trim` keeps, scanning down from `j` to `lo`. */
  function TrimEndIndex(s: string, lo: nat, j: nat): (k: nat)
    requires lo <= j <= |s|
    decreases j - lo
    ensures lo <= k <= j
    ensures forall t :: k <= t < j ==> IsWhiteSpace(s[t])
    ensures k > lo ==> !IsWhiteSpace(s[k - 1])
  {
    if j == lo || !IsWhiteSpace(s[j - 1]) then j else TrimEndIndex(s, lo, j - 1)
  }

  /**
   * `s.trim()`: a contiguous piece of `s` with only white space before and
   * after it, and none at either of its own ends.
   */
  function Trim(s: string): (r: string)
    ensures r == [] <==> Blank(s)
    ensures r != [] ==> !IsWhiteSpace(r[0]) && !IsWhiteSpace(r[|r| - 1])
    ensures exists a :: 0 <= a <= |s| - |r| && r == s[a..a + |r|] && Blank(s[..a]) && Blank(s[a + |r|..])
  {
    var a := TrimStartIndex(s, 0);
    var b := TrimEndIndex(s, a, |s|);
    assert a < |s| ==> a < b;
    assert forall t :: 0 <= t < a ==> s[..a][t] == s[t];
    assert forall t :: 0 <= t < |s| - b ==> s[b..][t] == s[b + t];
    assert Blank(s[..a]) && Blank(s[b..]);
    s[a..b]
  }

  /** One leading space before an otherwise trimmed text is all `trim` removes. */
  lemma TrimOneLeadingSpace(s: string)
    requires |s| >= 2 && IsWhiteSpace(s[0]) && !IsWhiteSpace(s[1]) && !IsWhiteSpace(s[|s| - 1])
    ensures Trim(s) == s[1..]
  {
    assert TrimStartIndex(s, 1) == 1;
  }

  // ---------------------------------------------------------------- split / join

  /** Position of the first `c` in `s`. */
  function IndexOf(s: string, c: char): (i: nat)
    requires c in s
    ensures i < |s| && s[i] == c
    ensures c !in s[..i]
  {
    if s[0] == c then 0
    else
      var i := 1 + IndexOf(s[1..], c);
      assert s[..i] == [s[0]] + s[1..][..i - 1];
      i
  }

  /** `parts.join(sep)` for a one-character separator. */
  function Join(parts: seq<string>, sep: char): string
  {
    if |parts| == 0 then ""
    else if |parts| == 1 then parts[0]
    else parts[0] + [sep] + Join(parts[1..], sep)
  }

  /** `s.split(sep)` for a one-character separator: the pieces between separators. */
  function Split(s: string, sep: char): (parts: seq<string>)
    decreases |s|
    ensures |parts| >= 1
    ensures forall k :: 0 <= k < |parts| ==> sep !in parts[k]
    ensures Join(parts, sep) == s
  {
    if sep !in s then [s]
    else
      var i := IndexOf(s, sep);
      var rest := Split(s[i + 1..], sep);
      var parts := [s[..i]] + rest;
      assert parts[1..] == rest;
      assert s == s[..i] + [sep] + s[i + 1..];
      parts
  }

  /** The first separator of `a + [c] + b` is the one after `a` when `a` has none. */
  lemma {:induction false} IndexOfAfterFree(a: string, c: char, b: string)
    requires c !in a
    ensures c in a + [c] + b
    ensures IndexOf(a + [c] + b, c) == |a|
  {
    var s := a + [c] + b;
    assert s[|a|] == c;
    if a != [] {
      assert s[0] == a[0];
      assert s[1..] == a[1..] + [c] + b;
      IndexOfAfterFree(a[1..], c, b);
    }
  }

  /** Splitting undoes joining separator-free pieces. */
  lemma {:induction false} SplitOfJoin(parts: seq<string>, sep: char)
    requires |parts| >= 1
    requires forall k :: 0 <= k < |parts| ==> sep !in parts[k]
    ensures Split(Join(parts, sep), sep) == parts
  {
    if |parts| > 1 {
      var rest := parts[1..];
      var tail := Join(rest, sep);
      SplitOfJoin(rest, sep);
      var s := parts[0] + [sep] + tail;
      assert Join(parts, sep) == s;
      IndexOfAfterFree(parts[0], sep, tail);
      assert s[..|parts[0]|] == parts[0];
      assert s[|parts[0]| + 1..] == tail;
      assert Split(s, sep) == [parts[0]] + Split(tail, sep);
      assert parts == [parts[0]] + rest;
    }
  }

  // ---------------------------------------------------------------- numbers

  predicate IsDigit(c: char) {
    '0' <= c <= '9'
  }

  predicate AllDigits(s: string) {
    forall i :: 0 <= i < |s| ==> IsDigit(s[i])
  }

  function DigitChar(d: nat): (c: char)
    requires d < 10
    ensures IsDigit(c)
  {
    ('0' as int + d) as char
  }

  /** The number a string of decimal digits denotes. */
  function DigitsValue(s: string): nat
    requires AllDigits(s)
  {
    if s == [] then 0 else 10 * DigitsValue(s[..|s| - 1]) + (s[|s| - 1] as int - '0' as int)
  }

  /** Decimal form of a natural number, as a template literal prints it. */
  function NatToString(n: nat): (s: string)
    ensures |s| >= 1 && AllDigits(s)
    ensures DigitsValue(s) == n
    ensures s[0] == '0' ==> s == "0"
  {
    if n < 10 then [DigitChar(n)]
    else
      var high := NatToString(n / 10);
      var s := high + [DigitChar(n % 10)];
      assert s[..|s| - 1] == high;
      s
  }

  /** Decimal form of an integer, with a leading `-` for negative values. */
  function IntToString(i: int): (s: string)
    ensures |s| >= 1
    ensures s[0] == '-' <==> i < 0
    ensures i < 0 ==> AllDigits(s[1..]) && DigitsValue(s[1..]) == -i
    ensures i >= 0 ==> AllDigits(s) && DigitsValue(s) == i
    // canonical form: no leading zero, whatever the sign
    ensures i >= 0 && s[0] == '0' ==> s == "0"
    ensures i < 0 ==> |s| >= 2 && s[1] != '0'
  {
    if i < 0 then
      var d := NatToString(-i);
      assert ("-" + d)[1..] == d;
      "-" + d
    else NatToString(i)
  }
}

=== FILE: json.dfy ===
/** Parsed JSON documents, as the gateway receives, caches and returns them. */
module Json {
  import opened Maybe

  /** Numbers are integers here; see README for what that leaves out. */
  datatype Json =
    | Null
    | Bool(b: bool)
    | Num(n: int)
    | Str(s: string)
    | Arr(items: seq<Json>)
    | Obj(fields: map<string, Json>)

  /** JavaScript truthiness of a parsed value, as `if (value)` decides it. */
  predicate Truthy(v: Json): (t: bool)
    ensures !t <==> v in {Null, Bool(false), Num(0), Str("")}
  {
    match v
    case Null => false
    case Bool(b) => b
    case Num(n) => n != 0
    case Str(s) => s != ""
    case Arr(_) => true
    case Obj(_) => true
  }

  /** An optional string JavaScript finds truthy: present and not empty. */
  predicate TruthyText(v: Option<string>) {
    v.Some? && v.value != ""
  }

  /** An optional number JavaScript finds truthy: present and not zero. */
  predicate TruthyNumber(v: Option<int>) {
    v.Some? && v.value != 0
  }

  /** Both are `Truthy` of the value they hold, and false when it is absent. */
  lemma TruthyOptions(s: Option<string>, n: Option<int>)
    ensures TruthyText(s) <==> s.Some? && Truthy(Str(s.value))
    ensures TruthyNumber(n) <==> n.Some? && Truthy(Num(n.value))
  {
  }

  /** A one-field object `{ name: value }`. */
  function Single(name: string, value: Json): (o: Json)
    ensures o.Obj? && o.fields.Keys == {name} && o.fields[name] == value
  {
    Obj(map[name := value])
  }
}

=== FILE: maybe.dfy ===
/** Optional values: an absent query parameter, header or JSON property. */
module Maybe {

  datatype Option<+T> = None | Some(value: T)
}

=== FILE: origin_policy.dfy ===
/**
 * The cross-origin policy of the gateway: requests without an `Origin`
 * header are served, and a present origin must equal one of four listed
 * strings exactly. There are no patterns or wildcards.
 */
module OriginPolicy {
  import opened Maybe

  const AllowedOrigins: seq<string> := [
    "http://localhost:8000",
    "http://127.0.0.1:5501",
    "http://localhost:5501",
    "https://dashboard-d2i9.onrender.com"
  ]

  /** `xs.includes(x)` on strings: some element is equal to `x`. */
  function Includes(xs: seq<string>, x: string): (b: bool)
    ensures b <==> exists i :: 0 <= i < |xs| && xs[i] == x
  {
    if |xs| == 0 then false
    else if xs[0] == x then true
    else
      var b := Includes(xs[1..], x);
      assert forall i :: 1 <= i < |xs| ==> xs[i] == xs[1..][i - 1];
      b
  }

  /** The origin callback: `!origin || allowedOrigins.includes(origin)`. */
  function Allows(origin: Option<string>): (ok: bool)
    ensures ok <==> origin.None? || origin.value == "" || origin.value in AllowedOrigins
  {
    origin.None? || origin.value == "" || Includes(AllowedOrigins, origin.value)
  }

  /** Extending an allowed origin by anything (a path, a port, a domain suffix) is refused. */
  lemma NoPrefixMatching(i: nat, suffix: string)
    requires i < |AllowedOrigins| && suffix != ""
    ensures !Allows(Some(AllowedOrigins[i] + suffix))
  {
    var o := AllowedOrigins[i] + suffix;
    assert o[4] == AllowedOrigins[i][4] && |o| > |AllowedOrigins[i]|;
    assert forall j :: 0 <= j < 3 ==> |AllowedOrigins[j]| == 21 && AllowedOrigins[j][4] == ':';
    assert |AllowedOrigins[3]| == 35 && AllowedOrigins[3][4] == 's';
  }

  /** Matching is case-sensitive and literal. */
  lemma RefusedExamples()
    ensures !Allows(Some("https://evil.example"))
    ensures !Allows(Some("HTTP://localhost:8000"))
    ensures !Allows(Some("https://evil.dashboard-d2i9.onrender.com"))
    ensures Allows(None) && Allows(Some(""))
    ensures Allows(Some("https://dashboard-d2i9.onrender.com"))
  {
    assert "https://evil.dashboard-d2i9.onrender.com"[8] == 'e';
  }
}

=== FILE: ttl_cache.dfy ===
/**
 * A process-local key/value store with a fixed time-to-live per entry and
 * lazy expiry: `get` removes an entry it finds expired. The clock is an
 * integer number of seconds supplied by the caller.
 */
module TtlCache {
  import opened Maybe

  /** Seconds an entry lives (server.js creates both caches with stdTTL 600). */
  const Ttl: int := 600

  datatype Entry<V> = Entry(value: V, expiresAt: int)

  /** One entry per key by construction. */
  type Cache<V> = map<string, Entry<V>>

  /** The answer of a lookup and the store after it. */
  datatype Lookup<V> = Lookup(value: Option<V>, cache: Cache<V>)

  /** An entry stored under `key` that has not expired at `now`. */
  predicate Live<V>(c: Cache<V>, key: string, now: int) {
    key in c && now <= c[key].expiresAt
  }

  /** `cache.get(key)`: the live value, or a miss that drops an expired entry. */
  function Get<V>(c: Cache<V>, key: string, now: int): (r: Lookup<V>)
    ensures r.value.Some? <==> Live(c, key, now)
    ensures r.value.Some? ==> r.value.value == c[key].value && r.cache == c
    ensures r.value.None? ==> key !in r.cache
    ensures forall k :: k != key ==> (k in r.cache <==> k in c) && (k in c ==> r.cache[k] == c[k])
  {
    if Live(c, key, now) then Lookup(Some(c[key].value), c)
    else Lookup(None, c - {key})
  }

  /** `cache.set(key, value)` at time `now`: the value replaces any earlier entry. */
  function Set<V>(c: Cache<V>, key: string, v: V, now: int): (r: Cache<V>)
    ensures forall t :: now <= t <= now + Ttl ==> Get(r, key, t).value == Some(v)
    ensures forall t :: now + Ttl < t ==> Get(r, key, t).value == None
    ensures forall k, t :: k != key ==> Get(r, k, t).value == Get(c, k, t).value
  {
    c[key := Entry(v, now + Ttl)]
  }

  /**
   * The purge a missing `get` performs is invisible: with a clock that does
   * not run backwards, every later lookup answers as it would have without it.
   */
  lemma PurgeInvisible<V>(c: Cache<V>, key: string, now: int, k: string, later: int)
    requires now <= later
    ensures Get(Get(c, key, now).cache, k, later).value == Get(c, k, later).value
  {
  }

  /** A second `set` for the same key wins: at most one entry per key. */
  lemma SetReplaces<V>(c: Cache<V>, key: string, v1: V, t1: int, v2: V, t2: int, t: int)
    requires t2 <= t <= t2 + Ttl
    ensures Get(Set(Set(c, key, v1, t1), key, v2, t2), key, t).value == Some(v2)
  {
  }
}
